=== FILE: README.md ===
# Helio patient portal: appointment sync and notifications, in Dafny

This project models the client-side decision logic of the Helio telemedicine
portal. It covers the patient home page (`Home.js`) and the push
notification manager (`pushNotifications.js`):

- reading the shared appointments document (`helio_appointments` in local
  storage) the way `JSON.parse` and `Array.isArray` see it;
- `toDate`, the naive timestamp built from an appointment's date and
  12-hour clock text, including JavaScript's `split`, `parseInt` and
  `toUpperCase`;
- the "My Appointments" badge: the count of upcoming appointments and the
  nearest one;
- the incoming-call detector, with its set of handled call sessions;
- the set of doctors who accepted the patient, and the call-button guard;
- the doctor search filter;
- the push notification manager: capability checks, the permission flow,
  registration and subscription, the application-server key decoding, and
  the options of the local notifications it shows.

The model works on immutable values, with one module per concern:

| file | module | models |
|---|---|---|
| wrappers.dfy | `Wrappers` | `Option` (undefined/null) and `Result` (a caught exception) |
| json.dfy | `Json` | parsed JSON values, truthiness, `a.b`, `a?.b`, `a \|\| b`, the stored document |
| jsstring.dfy | `JsString` | `split`, `join`, `parseInt(s, 10)`, ASCII case mapping, `includes` |
| schedule.dfy | `Schedule`, `ScheduleExamples` | `toDate` and worked clock readings |
| upcoming.dfy | `Upcoming` | `computeUpcomingAppointments` |
| upcoming_example.dfy | `UpcomingExample` | the badge for a morning, an afternoon and a past appointment |
| calls.dfy | `Calls` | `checkIncomingCall` and `handledCallIdsRef` |
| accepted.dfy | `AcceptedDoctors` | `loadAcceptedAppointments` and the call buttons |
| search.dfy | `DoctorSearch` | `filteredDoctors` |
| push.dfy | `PushNotifications` | `PushNotificationManager` |

The clock (`new Date()`), the browser's date construction, the browser
globals and the user's answers are parameters:

- `now` is the current time in milliseconds.
- `stamp(m)` is `new Date(iso).getTime()` for the ISO text built from a
  moment, or None for an Invalid Date.
- `Platform` records which browser APIs exist, the permission, the user's
  answer, which platform calls fail, and `window.atob`.

Every operation is pure, and none writes the appointments document. The
only state is passed in and returned: the handled-session set of the call
check, the previous accepted-doctor set that `loadAcceptedAppointments`
keeps when it fails, and the manager's registration.

## Model

| member | source | states |
|---|---|---|
| Json.Or | frontend/src/pages/Home.js:216 | `a \|\| b` is truthy exactly when `a` or `b` is |
| Json.OrAssociative | frontend/src/pages/Home.js:216 | `(a \|\| b) \|\| c` and `a \|\| (b \|\| c)` give the same value |
| Json.OrRepeated | frontend/src/pages/Home.js:216 | in `a \|\| b \|\| a`, when `a \|\| b` is truthy the repeated `a` changes nothing, and otherwise the result is `a` itself |
| Json.ReadArray | frontend/src/pages/Home.js:95-101 | the elements are available exactly for an array document; a missing one is empty, a parse failure throws, any other value is "not an array" |
| JsString.Split | frontend/src/pages/Home.js:82-83 | a split always has at least one piece |
| JsString.SplitPiecesAvoidSeparator | frontend/src/pages/Home.js:82-83 | no piece of a split contains the separator |
| JsString.JoinSplit | frontend/src/pages/Home.js:82-83 | joining the pieces with the separator gives the original text back |
| JsString.SplitJoin | frontend/src/pages/Home.js:82-83 | splitting a join of separator-free pieces gives the pieces back |
| JsString.SplitWithoutSeparator | frontend/src/pages/Home.js:82-83 | a text without the separator splits into itself alone (a time without a period) |
| JsString.SplitSeveral | frontend/src/pages/Home.js:82-83 | a text holding the separator splits into at least two pieces |
| JsString.SplitAtFirst | frontend/src/pages/Home.js:82-83 | the first separator ends the first piece |
| JsString.TrimStart | frontend/src/pages/Home.js:84 | parseInt's leading white space is removed, everything removed is white space, and the rest starts with a non-space |
| JsString.DigitPrefix | frontend/src/pages/Home.js:84 | parseInt reads the longest run of decimal digits |
| JsString.ParseInt | frontend/src/pages/Home.js:84 | a number is read only from a text holding a digit, and a negative one only after a leading minus sign |
| JsString.ParseIntNaN | frontend/src/pages/Home.js:84 | parseInt is NaN exactly when no digit follows the white space and the optional sign |
| JsString.ParseIntDigits | frontend/src/pages/Home.js:84 | a digit string, alone or followed by a non-digit, parses to its decimal value |
| JsString.ToUpper | frontend/src/pages/Home.js:86 | upper-casing leaves no lower-case ASCII letter and keeps every other character |
| JsString.UpperIdempotent | frontend/src/pages/Home.js:86 | upper-casing twice is upper-casing once |
| JsString.ToLower | frontend/src/pages/Home.js:301-302 | lower-casing leaves no upper-case ASCII letter and keeps every other character |
| JsString.LowerIdempotent | frontend/src/pages/Home.js:301-302 | lower-casing twice is lower-casing once |
| JsString.CaseRoundTrip | frontend/src/pages/Home.js:301-302 | lower-casing forgets an earlier upper-casing, and upper-casing forgets an earlier lower-casing |
| JsString.IncludesOccurs | frontend/src/pages/Home.js:301-302 | `includes` holds exactly when the term occurs at some position |
| JsString.IncludesEmpty | frontend/src/pages/Home.js:301-302 | every text includes the empty search term |
| Schedule.IsPMUpperCase | frontend/src/pages/Home.js:86 | the letter-by-letter period test is `period.toUpperCase() === 'PM'` |
| Schedule.AdjustHour | frontend/src/pages/Home.js:85-89 | only a truthy period changes the hour; an hour of the day stays one; with a period, an hour from 1 to 12 lands in the afternoon half exactly when the period is PM |
| Schedule.TimeText | frontend/src/pages/Home.js:82 | a falsy time becomes "00:00", a string is used as is, any other truthy value makes `split` throw |
| Schedule.ClockOfPresence | frontend/src/pages/Home.js:82-83 | the period is present exactly when the text holds a space, the minute exactly when the part before the first space holds a colon; otherwise destructuring yields `undefined` |
| Schedule.SplitPieces | frontend/src/pages/Home.js:82-83 | a split has one piece exactly when the separator is absent |
| Schedule.ClockPiecesAvoidSeparators | frontend/src/pages/Home.js:82-83 | the hour, minute and period pieces hold no separator that ended them |
| Schedule.ClockOfText | frontend/src/pages/Home.js:82-83 | a clock text "hh:mm period" destructures into exactly those pieces |
| Schedule.ReadClock | frontend/src/pages/Home.js:84-90 | a clock reading is never the null date; a valid one keeps the date and has a non-empty minute |
| Schedule.ToDate | frontend/src/pages/Home.js:80-91 | null exactly for a falsy date; throws exactly for a truthy date with a truthy non-string time or with a date whose string conversion throws (an object with an own `toString` key, or an array holding one); a timestamp keeps the date and has a minute |
| Schedule.ToDateClock | frontend/src/pages/Home.js:80-91 | the 12-hour rule: PM below 12 adds 12, another non-empty period maps 12 to 0, no period keeps the hour; the minute defaults to "00" |
| Schedule.UnreadableHourIsInvalid | frontend/src/pages/Home.js:84-90 | an hour text parseInt cannot read gives an Invalid Date |
| ScheduleExamples.DefaultTimeText | frontend/src/pages/Home.js:82 | a falsy time is read as the clock text "00:00" |
| ScheduleExamples.MidnightClock | frontend/src/pages/Home.js:83-90 | the clock text "00:00" reads as hour 0, minute "00" |
| ScheduleExamples.MissingTimeIsMidnight | frontend/src/pages/Home.js:82 | a missing time reads as midnight, minute "00" |
| ScheduleExamples.ReadsAt | frontend/src/pages/Home.js:80-91 | a clock text whose hour digits have value v reads, at any minute, as the hour the 12-hour correction makes of v |
| ScheduleExamples.TwelveHourRule | frontend/src/pages/Home.js:85-88 | at any minute, 12 AM is hour 0, 12 PM stays 12, 1 PM is 13, and 2 pm is 14 whatever the period's case |
| Upcoming.Classify | frontend/src/pages/Home.js:108-117 | a cancelled or completed record is skipped; a counted one has a truthy id and a timestamp not before now |
| Upcoming.ClassifyMeaning | frontend/src/pages/Home.js:108-117 | an element throws exactly when it passes the guard and `toDate` throws; it is counted exactly when it passes the guard and reads as a valid date not before now, and its time is that date's |
| Upcoming.UnstringableDateRaises | frontend/src/pages/Home.js:90 | an element passing the guard whose date cannot be converted to a string makes the loop throw |
| Upcoming.CountUpcoming | frontend/src/pages/Home.js:112 | the count is 0 exactly when no element is counted, and the array length exactly when all are |
| Upcoming.ComputeUpcoming | frontend/src/pages/Home.js:93-127 | unreadable or non-array documents and throwing elements give count 0 and no appointment; otherwise the count is the number of upcoming records and the next appointment is the nearest one, absent exactly when the count is 0 |
| Upcoming.Scan | frontend/src/pages/Home.js:107-119 | the loop throws exactly when some element throws, counts the counted elements and keeps the earliest of the nearest |
| Upcoming.CountStep | frontend/src/pages/Home.js:111-112 | one more element adds one to the count exactly when it is counted |
| Upcoming.NearestKept | frontend/src/pages/Home.js:114-117 | a later element that is not strictly nearer keeps the nearest |
| Upcoming.NearestNew | frontend/src/pages/Home.js:114-117 | a strictly nearer counted element becomes the nearest |
| Upcoming.NearestIsUnique | frontend/src/pages/Home.js:114-117 | at most one position is the nearest, ties going to the earliest |
| Upcoming.NearestExists | frontend/src/pages/Home.js:111-117 | the count is positive exactly when some element is counted, and then a nearest one exists |
| Upcoming.TerminalNeverUpcoming | frontend/src/pages/Home.js:109 | a cancelled or completed record is never the nearest and always leaves the count below the array length |
| Upcoming.CountBelowLength | frontend/src/pages/Home.js:108-112 | an uncounted element keeps the count below the length |
| UpcomingExample.ClassifyScheduled | frontend/src/pages/Home.js:108-112 | a scheduled record is counted exactly when its moment is not before now |
| UpcomingExample.MiddleOnlyCounted | frontend/src/pages/Home.js:111-117 | with only the middle element counted, the count is 1 and that element is the only nearest |
| UpcomingExample.BetweenMorningAndAfternoon | frontend/src/pages/Home.js:93-127 | seen between a morning and an afternoon appointment, with a past one, only the afternoon one counts and it is next |
| UpcomingExample.ToStringDateSpoilsBadge | frontend/src/pages/Home.js:93-127 | after a scheduled record, a record dated `{"toString": 0}` still makes the loop throw, so the badge falls to the catch |
| Calls.FindOpen | frontend/src/pages/Home.js:250 | the search yields the first open record of this patient, with no `null` before it; it finds nothing only if no element is open or `null`; it throws only on a `null` before any open record |
| Calls.DoctorOf | frontend/src/pages/Home.js:253-260 | the doctor descriptor takes the record's id, name and specialty when truthy and the defaults "1", "Doctor" and "General Medicine" otherwise |
| Calls.RouteOf | frontend/src/pages/Home.js:262-266 | the video screen exactly for "video", the audio screen exactly for "audio" |
| Calls.Decide | frontend/src/pages/Home.js:251-270 | on the found record: a falsy session clears the handled set; a handled session changes nothing; a new session is added, and navigates exactly when the call type is known, carrying the session, the doctor descriptor and this patient's name |
| Calls.Step | frontend/src/pages/Home.js:244-274 | a new session is added to the handled set when announced; staying changes nothing |
| Calls.OpenRecord | frontend/src/pages/Home.js:244-250 | the record a check acts on is open for this patient |
| Calls.StepNavigates | frontend/src/pages/Home.js:250-266 | a check navigates exactly when an open invitation has a new session and a known call type, and it carries that record's session, `patientId \|\| id`, name and doctor descriptor |
| Calls.StepNeverResets | frontend/src/pages/Home.js:267-270 | the reset branch is never taken and the handled set only grows |
| Calls.StepSettles | frontend/src/pages/Home.js:251-252 | checking the same document right after a check does nothing |
| Calls.MalformedDocumentIsQuiet | frontend/src/pages/Home.js:244-248 | an unparseable, `null` or object document announces nothing and keeps the handled set |
| Calls.AnnouncedSessionsCons | frontend/src/pages/Home.js:251-252 | the sessions announced by a sequence are those of its first action and those of the rest |
| Calls.Run | frontend/src/pages/Home.js:242-252 | successive checks give one action per observation, and the handled set ends as the initial one plus exactly the sessions announced |
| Calls.RunAnnouncesNew | frontend/src/pages/Home.js:242-252 | along a run the handled set grows, and every announced session was new and ends up handled |
| Calls.AnnouncedAtMostOnce | frontend/src/pages/Home.js:242-252 | each session is announced at most once along a run |
| Calls.RepeatedDocumentSettles | frontend/src/pages/Home.js:251-252 | re-observing a fixed document, every check after the first does nothing |
| Calls.StaysWhenSettled | frontend/src/pages/Home.js:251-252 | once a document has been checked, any number of further checks of it stay |
| Calls.StepIntended | frontend/src/pages/Home.js:267-270 | the corrected check clears the handled set exactly when the document reads as an array with no open invitation, and agrees with the written check otherwise |
| Calls.RunIntended | frontend/src/pages/Home.js:267-270 | after corrected checks the handled set holds only initial and announced sessions, and without a reset it ends as the written check's does |
| Calls.ReArmAfterWithdrawal | frontend/src/pages/Home.js:267-270 | with the correction, a withdrawal resets and the next open invitation is announced |
| Calls.VideoInviteIsOpen | frontend/src/pages/Home.js:250 | a record with a video call type and session "S" is the open invitation |
| Calls.WithdrawnHasNoInvite | frontend/src/pages/Home.js:250 | the record without call fields is not an open invitation |
| Calls.ReinviteIsMissed | frontend/src/pages/Home.js:250-270 | as written, invite "S", withdraw, invite "S" gives navigate, nothing, nothing |
| Calls.ReinviteIsAnnounced | frontend/src/pages/Home.js:267-270 | corrected, the same sequence gives navigate, reset, navigate |
| AcceptedDoctors.DoctorKey | frontend/src/pages/Home.js:216 | the doctor id is `doctorId` when truthy, else the nested `doctor?.id` when truthy, else `doctorId` itself; it is truthy exactly when one of the two is |
| AcceptedDoctors.Accepted | frontend/src/pages/Home.js:215 | the filter keeps exactly the records of this patient in progress |
| AcceptedDoctors.Keys | frontend/src/pages/Home.js:216 | the set holds at most one id per record, and an id exactly when some record yields it |
| AcceptedDoctors.KeysOfTail | frontend/src/pages/Home.js:216 | an id comes from some record exactly when it comes from the first or from one of the rest |
| AcceptedDoctors.LoadAccepted | frontend/src/pages/Home.js:210-221 | a parse failure, a non-array document or a `null` element keeps the previous set; a missing document gives the empty set; otherwise an id is in the set exactly when a record of this patient in progress yields it |
| AcceptedDoctors.KeysOfAccepted | frontend/src/pages/Home.js:215-216 | the ids of the filtered records are the ids of this patient's records in progress |
| AcceptedDoctors.CallButton | frontend/src/pages/Home.js:703-708 | a call button navigates to its screen exactly when the doctor's id is accepted |
| AcceptedDoctors.ButtonEnabledByRecord | frontend/src/pages/Home.js:703-723 | after a load, a doctor's call buttons work exactly when a record of this patient in progress names that doctor |
| AcceptedDoctors.NoDocumentDisablesCalls | frontend/src/pages/Home.js:703-723 | with no stored document every call button is disabled |
| DoctorSearch.Filter | frontend/src/pages/Home.js:300-307 | only doctors passing all three criteria are shown |
| DoctorSearch.FilterMembership | frontend/src/pages/Home.js:300-307 | a doctor is shown exactly when listed and passing the criteria |
| DoctorSearch.FilterAppend | frontend/src/pages/Home.js:300-307 | the filter works element by element, keeping the list order |
| DoctorSearch.FilterIdempotent | frontend/src/pages/Home.js:300-307 | filtering the shown doctors again changes nothing |
| DoctorSearch.EmptyCriteriaShowsAll | frontend/src/pages/Home.js:301-304 | with every control cleared all doctors are shown |
| DoctorSearch.AvailableOnlyNarrows | frontend/src/pages/Home.js:304 | "available only" hides exactly the unavailable doctors among those otherwise shown |
| DoctorSearch.SearchIgnoresCase | frontend/src/pages/Home.js:301-302 | the search term's ASCII case does not change the result |
| DoctorSearch.SameKeep | frontend/src/pages/Home.js:300-307 | criteria that keep the same doctors show the same list |
| PushNotifications.Repeat | frontend/src/utils/pushNotifications.js:8 | the demo key's repeated part has the expected length and characters |
| PushNotifications.IsSupported | frontend/src/utils/pushNotifications.js:111-114 | a supported platform reports its permission as its status |
| PushNotifications.PermissionStatus | frontend/src/utils/pushNotifications.js:117-122 | "unsupported" exactly without a window or the Notification API, the permission otherwise |
| PushNotifications.SupportedHasStatus | frontend/src/utils/pushNotifications.js:111-122 | on a supported platform the status is the permission |
| PushNotifications.RequestPermission | frontend/src/utils/pushNotifications.js:38-44 | the user's answer when the Notification API exists, "denied" without it, a ReferenceError without a window |
| PushNotifications.Padding | frontend/src/utils/pushNotifications.js:62 | at most three "=" are added, making the length a multiple of four, and none when it already is |
| PushNotifications.ReplaceAll | frontend/src/utils/pushNotifications.js:64-65 | a global one-character replace leaves no occurrence of the replaced character, keeps a text without it unchanged, and the replacement occurs afterwards exactly when it or the replaced character occurred before |
| PushNotifications.ReplaceAllIdempotent | frontend/src/utils/pushNotifications.js:64-65 | replacing a second time changes nothing |
| PushNotifications.StandardBase64 | frontend/src/utils/pushNotifications.js:62-65 | the rewritten key has a length divisible by four, no "-" or "_", and is the key in the standard alphabet followed by "=" padding |
| PushNotifications.KeyBytes | frontend/src/utils/pushNotifications.js:61-74 | decoding throws exactly when `atob` fails; otherwise one byte per decoded character, equal to its code when below 256 |
| PushNotifications.StandardKeyUnchanged | frontend/src/utils/pushNotifications.js:62-65 | a key already in the standard alphabet, of a length divisible by four, is passed on unchanged |
| PushNotifications.DemoKeyIsStandard | frontend/src/utils/pushNotifications.js:8 | the demo key needs neither padding nor rewriting |
| PushNotifications.Subscribe | frontend/src/utils/pushNotifications.js:46-58 | subscribing succeeds exactly with a registration, a decodable key and a willing push service, and never throws |
| PushNotifications.Init | frontend/src/utils/pushNotifications.js:11-36 | init succeeds exactly when all capabilities exist and registration succeeds; it subscribes only under granted permission |
| PushNotifications.InitNeverAsks | frontend/src/utils/pushNotifications.js:24-29 | init never asks the user |
| PushNotifications.InitSuccessMeansSupported | frontend/src/utils/pushNotifications.js:11-36 | a successful init implies the platform is supported |
| PushNotifications.Enable | frontend/src/utils/pushNotifications.js:125-149 | each failure and success message of the enable flow: not supported, already enabled, denied in settings, and after the prompt "Push notifications enabled" with a subscription attempt, "Permission denied", or the rejection's message; the user is asked exactly when supported with the permission undecided; success leaves the permission granted |
| PushNotifications.SubscriptionFailureIsNotFatal | frontend/src/utils/pushNotifications.js:139-142 | a granted prompt enables notifications even when subscribing fails |
| PushNotifications.EnableIsStable | frontend/src/utils/pushNotifications.js:130-131 | enabling again after a success reports "Already enabled" without asking |
| PushNotifications.DenialIsFinal | frontend/src/utils/pushNotifications.js:134-135 | after a denial every later enable fails without asking |
| PushNotifications.NotificationFor | frontend/src/utils/pushNotifications.js:87-98 | the options carry the message, icon and tag; interaction is required and auto-close is off exactly for urgent types; incoming calls vibrate longer |
| PushNotifications.Send | frontend/src/utils/pushNotifications.js:77-108 | a notification is shown exactly with the browser globals, the Notification API, granted permission and a working constructor |
| PushNotifications.UrgentStaysOnScreen | frontend/src/utils/pushNotifications.js:91-98 | a shown notification requires interaction exactly when it does not close itself, and others close after 5000 ms |
| PushNotifications.EnabledMeansShown | frontend/src/utils/pushNotifications.js:86 | after a successful enable every event is shown |

## Left out

- Event wiring is not modelled: the `storage` and `focus` listeners, their removal, and the initial `useEffect` calls. `Calls.Run` stands for any sequence of observations.
- Timers are not modelled: the badge animation, the simulated `fetchDoctors` delay and the notification's `close()` call. Only the auto-close delay appears, as a value.
- Rendering is not modelled: `renderStars`, `getGreeting`, the specialty list derived from the doctors, translations and CSS classes.
- `Profile.js` and the `usePushNotifications` hook are callers outside this model.
- The time-zone semantics of `new Date(...)` and `getTime()` are the parameter `stamp`, and the clock is the parameter `now`.
- `Schedule.ToDate` does not model the millisecond value of a date.
- `JsString.ParseInt` does not model the float rounding of digit strings longer than 2^53.
- JSON numbers are integers. Floats never reach a decision here: they are only tested for truthiness and identity.
- JSON objects are maps, so duplicate keys and key order are not represented.
- `JsString.ToUpper`, `JsString.ToLower` and `DoctorSearch.SearchIgnoresCase` cover ASCII letters only. JavaScript also maps other Unicode letters.
- Set membership compares JSON values by value. JavaScript `Set` compares objects by identity, which only matters for session ids or doctor ids that are objects or arrays.
- The payloads of the navigation state and of the subscription object are not modelled. Only the route, the invitation fields and the fact of subscribing are.
- `PushNotifications.Enable` reports the browser's new permission after the prompt. That update is browser behaviour, not code of the manager.
- `PushNotifications.KeyBytes` treats `window.atob` as a parameter and does not model base64 decoding itself.
- The `notification.onclick` handler (focus the window, close) is not modelled.
- The doctor-card navigation payload (`state: { doctor }`) is not modelled. `AcceptedDoctors.CallButton` returns only the screen.
- `PushNotifications.IsSupported` states only what a supported platform implies, because its capability test is its definition. `PushNotifications.InitSuccessMeansSupported` relates that test to `init`.

## Findings

| source | as written | input that shows it | evidently intended | confidence | as-written member | corrected member |
|---|---|---|---|---|---|---|
| frontend/src/pages/Home.js:267-270 | the reset branch runs only when the found record has a falsy `callSessionId`, but the `find` at line 250 only returns records with a truthy one, so the handled set is never cleared | invite session "S", then the doctor withdraws the call, then invites again with "S": the second invitation is never announced | clear the handled set when no open invitation remains, so a later invitation is announced again | high, not executed | Calls.Step | Calls.StepIntended |

`Calls.Step` models the code as written: `Calls.StepNeverResets` proves that
its reset branch is dead, and `Calls.ReinviteIsMissed` runs the sequence
above. `Calls.StepIntended` adds the re-arm. `Calls.ReArmAfterWithdrawal`
and `Calls.ReinviteIsAnnounced` prove the intended behaviour. The
corrected check clears the set only when the document is read as an
array and no invitation is found. An unreadable document still changes
nothing, as in the written code.

=== FILE: accepted.dfy ===
/** `loadAcceptedAppointments` of the patient home page (Home.js): the set
    of doctors who accepted this patient's consultation, and the guard of
    the video and audio call buttons on each doctor card. */
module AcceptedDoctors {
  import opened Wrappers
  import opened Json
  import Calls

  /** The `filter` predicate: this patient's record in the `in_progress`
      state. */
  predicate IsAccepted(a: Json, patient: string)
  {
    Get(a, "patientName") == Some(JStr(patient)) && Get(a, "status") == Some(JStr("in_progress"))
  }

  /** `a.doctorId || a.doctor?.id || a.doctorId`: the record's doctor id,
      falling back to the nested doctor object, and to the (falsy)
      `doctorId` itself when neither is truthy. */
  function DoctorKey(a: Json): (k: Option<Json>)
    ensures Truthy(Get(a, "doctorId")) ==> k == Get(a, "doctorId")
    ensures !Truthy(Get(a, "doctorId")) && Truthy(OptProp(Get(a, "doctor"), "id")) ==>
      k == OptProp(Get(a, "doctor"), "id")
    ensures !Truthy(Get(a, "doctorId")) && !Truthy(OptProp(Get(a, "doctor"), "id")) ==>
      k == Get(a, "doctorId")
    ensures Truthy(k) <==> Truthy(Get(a, "doctorId")) || Truthy(OptProp(Get(a, "doctor"), "id"))
  {
    OrRepeated(Get(a, "doctorId"), OptProp(Get(a, "doctor"), "id"));
    Or(Or(Get(a, "doctorId"), OptProp(Get(a, "doctor"), "id")), Get(a, "doctorId"))
  }

  /** No element is `null`: the only way the `filter` predicate throws. */
  predicate NoNull(items: seq<Json>)
  {
    forall j :: 0 <= j < |items| ==> !items[j].JNull?
  }

  /** `parsed.filter(...)` over an array without `null` elements, keeping
      the array order. */
  function Accepted(items: seq<Json>, patient: string): (r: seq<Json>)
    requires NoNull(items)
    ensures |r| <= |items|
    ensures forall x :: x in r ==> x in items && IsAccepted(x, patient)
    ensures forall j :: 0 <= j < |items| && IsAccepted(items[j], patient) ==> items[j] in r
    decreases |items|
  {
    if |items| == 0 then []
    else
      var rest := Accepted(items[1..], patient);
      assert forall j :: 1 <= j < |items| ==> items[j] == items[1..][j - 1];
      if IsAccepted(items[0], patient) then [items[0]] + rest else rest
  }

  /** Some record yields key `k`. */
  predicate YieldsKey(records: seq<Json>, k: Option<Json>)
  {
    exists j :: 0 <= j < |records| && DoctorKey(records[j]) == k
  }

  /** `new Set(accepted.map(DoctorKey))`: one key per record at most, and a
      key is present exactly when some record yields it. */
  function Keys(records: seq<Json>): (r: set<Option<Json>>)
    ensures |r| <= |records|
    ensures forall k :: k in r <==> YieldsKey(records, k)
    decreases |records|
  {
    if |records| == 0 then {}
    else
      KeysOfTail(records);
      {DoctorKey(records[0])} + Keys(records[1..])
  }

  /** A key comes from some record exactly when it comes from the first or
      from one of the rest. */
  lemma KeysOfTail(records: seq<Json>)
    requires |records| > 0
    ensures forall k :: YieldsKey(records, k) <==>
      k == DoctorKey(records[0]) || YieldsKey(records[1..], k)
  {
    forall k | YieldsKey(records, k)
      ensures k == DoctorKey(records[0]) || YieldsKey(records[1..], k)
    {
      var j :| 0 <= j < |records| && DoctorKey(records[j]) == k;
      if j > 0 {
        assert records[1..][j - 1] == records[j];
      }
    }
    forall k | YieldsKey(records[1..], k)
      ensures YieldsKey(records, k)
    {
      var j :| 0 <= j < |records[1..]| && DoctorKey(records[1..][j]) == k;
      assert records[j + 1] == records[1..][j];
    }
  }

  /** The whole handler: an unreadable document or a `null` element (the
      filter throws) is caught, and a non-array document returns early;
      in all three cases the previous set stays. A missing document gives
      the empty set. Otherwise an id is in the set exactly when some record
      of this patient in progress yields it. */
  function LoadAccepted(doc: Stored, patient: string, prev: set<Option<Json>>): (r: set<Option<Json>>)
    ensures doc.Unparseable? ==> r == prev
    ensures doc.Parsed? && !doc.value.JArr? ==> r == prev
    ensures doc.Absent? ==> r == {}
    ensures doc.Parsed? && doc.value.JArr? && !NoNull(doc.value.items) ==> r == prev
    ensures doc.Parsed? && doc.value.JArr? && NoNull(doc.value.items) ==>
      forall k :: k in r <==>
        exists j :: 0 <= j < |doc.value.items| && IsAccepted(doc.value.items[j], patient) &&
                    DoctorKey(doc.value.items[j]) == k
  {
    match ReadArray(doc)
    case Thrown => prev
    case Ok(None) => prev
    case Ok(Some(items)) =>
      if NoNull(items) then KeysOfAccepted(items, patient); Keys(Accepted(items, patient)) else prev
  }

  /** The keys of the accepted records are the keys of this patient's
      records in progress. */
  lemma KeysOfAccepted(items: seq<Json>, patient: string)
    requires NoNull(items)
    ensures forall k :: k in Keys(Accepted(items, patient)) <==>
      exists j :: 0 <= j < |items| && IsAccepted(items[j], patient) && DoctorKey(items[j]) == k
  {
    var acc := Accepted(items, patient);
    forall k | k in Keys(acc)
      ensures exists j :: 0 <= j < |items| && IsAccepted(items[j], patient) && DoctorKey(items[j]) == k
    {
      var i :| 0 <= i < |acc| && DoctorKey(acc[i]) == k;
      assert acc[i] in acc;
      var j :| 0 <= j < |items| && items[j] == acc[i];
      assert IsAccepted(items[j], patient);
    }
    forall k, j | 0 <= j < |items| && IsAccepted(items[j], patient) && DoctorKey(items[j]) == k
      ensures k in Keys(acc)
    {
      assert items[j] in acc;
      var i :| 0 <= i < |acc| && acc[i] == items[j];
    }
  }

  /** The click handler of a call button: it navigates to its screen only
      when the card's doctor id is in the accepted set; the button is
      disabled exactly when it would not navigate. */
  function CallButton(accepted: set<Option<Json>>, doctorId: string, screen: Calls.Route): (r: Option<Calls.Route>)
    ensures r.Some? ==> r.value == screen
    ensures r.None? <==> Some(JStr(doctorId)) !in accepted
  {
    if Some(JStr(doctorId)) in accepted then Some(screen) else None
  }

  /** After a successful load, the call buttons of a doctor card are
      enabled exactly when a record of this patient in progress names that
      doctor (as a string id; `Set.has` tells the number 1 from the string
      "1"). */
  lemma ButtonEnabledByRecord(items: seq<Json>, patient: string, prev: set<Option<Json>>,
                              doctorId: string, screen: Calls.Route)
    requires NoNull(items)
    ensures CallButton(LoadAccepted(Parsed(JArr(items)), patient, prev), doctorId, screen).Some? <==>
      exists j :: 0 <= j < |items| && IsAccepted(items[j], patient) && DoctorKey(items[j]) == Some(JStr(doctorId))
  {
    var r := LoadAccepted(Parsed(JArr(items)), patient, prev);
    assert Some(JStr(doctorId)) in r <==>
      exists j :: 0 <= j < |items| && IsAccepted(items[j], patient) && DoctorKey(items[j]) == Some(JStr(doctorId));
  }

  /** With no stored document every call button is disabled. */
  lemma NoDocumentDisablesCalls(patient: string, prev: set<Option<Json>>, doctorId: string, screen: Calls.Route)
    ensures CallButton(LoadAccepted(Absent, patient, prev), doctorId, screen).None?
  {
  }
}

=== FILE: calls.dfy ===
/** `checkIncomingCall` of the patient home page (Home.js): spotting a call
    a doctor has opened for this patient in the shared appointments
    document, navigating to the call screen once per session, and the set
    of session ids already acted on (`handledCallIdsRef`).

    The patient's name (`user?.name || 'Gurpreet Singh'`) is a parameter;
    navigation is returned as an action instead of performed. */
module Calls {
  import opened Wrappers
  import opened Json

  // ---------------------------------------------------------------------
  // Finding the open invitation

  /** The `find` predicate: this patient's record with a truthy `callType`
      and a truthy `callSessionId`. */
  predicate IsOpen(a: Json, patient: string)
  {
    && Get(a, "patientName") == Some(JStr(patient))
    && Truthy(Get(a, "callType"))
    && Truthy(Get(a, "callSessionId"))
  }

  /** `arr.find(a => a.patientName === patient && a.callType && a.callSessionId)`
      as the index of the element found. Reading `patientName` of a `null`
      element raises a TypeError, so a `null` before the first match makes
      the whole search throw. */
  function FindOpen(items: seq<Json>, patient: string): (r: Result<Option<nat>>)
    ensures r.Ok? && r.value.Some? ==>
      && r.value.value < |items|
      && IsOpen(items[r.value.value], patient)
      && forall j :: 0 <= j < r.value.value ==> !IsOpen(items[j], patient) && !items[j].JNull?
    ensures r == Ok(None) ==> forall j :: 0 <= j < |items| ==> !IsOpen(items[j], patient) && !items[j].JNull?
    ensures r.Thrown? ==> exists j :: 0 <= j < |items| && items[j].JNull? &&
                                   (forall i :: 0 <= i < j ==> !IsOpen(items[i], patient))
    decreases |items|
  {
    if |items| == 0 then Ok(None)
    else if items[0].JNull? then Thrown
    else if IsOpen(items[0], patient) then Ok(Some(0))
    else
      match FindOpen(items[1..], patient)
      case Thrown => Thrown
      case Ok(None) => Ok(None)
      case Ok(Some(k)) => Ok(Some(k + 1))
  }

  // ---------------------------------------------------------------------
  // What the call screen receives

  /** The doctor descriptor built from the record, with its fixed defaults. */
  datatype DoctorInfo = DoctorInfo(
    id: Json, name: Json, specialty: Json,
    qualifications: string, languages: string, experience: int)

  /** The patient descriptor: `patientId || id` (possibly `undefined`) and
      the name the record was matched on. */
  datatype PatientInfo = PatientInfo(id: Option<Json>, name: string)

  datatype Invitation = Invitation(doctor: DoctorInfo, patient: PatientInfo, callType: string, session: Json)

  /** The two call screens. */
  datatype Route = VideoCall | AudioCall

  /** The outcome of one check. `MarkOnly` is a new session whose
      `callType` is neither "video" nor "audio": it is recorded as handled
      but nothing is opened. */
  datatype Action =
    | Navigate(route: Route, invitation: Invitation)
    | MarkOnly(session: Json)
    | Stay
    | ResetHandled

  datatype StepResult = StepResult(action: Action, handled: set<Json>)

  /** `incoming.doctorId || '1'`, `incoming.doctor || 'Doctor'`,
      `incoming.specialist || 'General Medicine'` and the fixed
      qualification, language and experience values. */
  function DoctorOf(a: Json): (d: DoctorInfo)
    ensures Truthy(Get(a, "doctorId")) ==> d.id == Get(a, "doctorId").value
    ensures !Truthy(Get(a, "doctorId")) ==> d.id == JStr("1")
    ensures Truthy(Get(a, "doctor")) ==> d.name == Get(a, "doctor").value
    ensures !Truthy(Get(a, "doctor")) ==> d.name == JStr("Doctor")
    ensures Truthy(Get(a, "specialist")) ==> d.specialty == Get(a, "specialist").value
    ensures !Truthy(Get(a, "specialist")) ==> d.specialty == JStr("General Medicine")
    ensures Truthy(Some(d.id)) && Truthy(Some(d.name)) && Truthy(Some(d.specialty))
  {
    DoctorInfo(
      Or(Get(a, "doctorId"), Some(JStr("1"))).value,
      Or(Get(a, "doctor"), Some(JStr("Doctor"))).value,
      Or(Get(a, "specialist"), Some(JStr("General Medicine"))).value,
      "MBBS", "English, Hindi, Punjabi", 12)
  }

  /** The route for `callType === 'video'` / `'audio'`, None otherwise. */
  function RouteOf(callType: Option<Json>): (r: Option<Route>)
    ensures r == Some(VideoCall) <==> callType == Some(JStr("video"))
    ensures r == Some(AudioCall) <==> callType == Some(JStr("audio"))
  {
    if callType == Some(JStr("video")) then Some(VideoCall)
    else if callType == Some(JStr("audio")) then Some(AudioCall)
    else None
  }

  // ---------------------------------------------------------------------
  // One check, as written

  /** The session-id branches for the found record `a`, with the reset
      branch that fires when `callSessionId` is falsy. A new session is
      announced and added to the handled set: navigated to with this
      record's invitation when the call type is known, only marked
      otherwise. A handled session changes nothing. */
  function Decide(a: Json, patient: string, handled: set<Json>): (r: StepResult)
    requires Get(a, "patientName") == Some(JStr(patient))
    ensures r.action.ResetHandled? <==> !Truthy(Get(a, "callSessionId"))
    ensures r.action.ResetHandled? ==> r.handled == {}
    ensures r.action.Stay? <==> Truthy(Get(a, "callSessionId")) && Get(a, "callSessionId").value in handled
    ensures r.action.Stay? ==> r.handled == handled
    ensures r.action.Navigate? <==>
      Truthy(Get(a, "callSessionId")) && Get(a, "callSessionId").value !in handled && RouteOf(Get(a, "callType")).Some?
    ensures r.action.Navigate? ==>
      && r.action.route == RouteOf(Get(a, "callType")).value
      && r.action.invitation.session == Get(a, "callSessionId").value
      && r.action.invitation.doctor == DoctorOf(a)
      && r.action.invitation.patient.name == patient
    ensures r.action.Navigate? || r.action.MarkOnly? ==>
      r.handled == handled + {Get(a, "callSessionId").value}
  {
    var sid := Get(a, "callSessionId");
    if Truthy(sid) && sid.value !in handled then
      var handled' := handled + {sid.value};
      match RouteOf(Get(a, "callType"))
      case Some(route) =>
        var callType := if route == VideoCall then "video" else "audio";
        StepResult(Navigate(route, Invitation(DoctorOf(a),
          PatientInfo(Or(Get(a, "patientId"), Get(a, "id")), patient), callType, sid.value)), handled')
      case None => StepResult(MarkOnly(sid.value), handled')
    else if !Truthy(sid) then StepResult(ResetHandled, {})
    else StepResult(Stay, handled)
  }

  /** One run of `checkIncomingCall` over the stored document: an
      unreadable or non-array document, a search that throws or finds
      nothing leaves everything as it was. */
  function Step(doc: Stored, patient: string, handled: set<Json>): (r: StepResult)
    ensures r.action.Stay? ==> r.handled == handled
    ensures r.action.Navigate? ==>
      r.action.invitation.session !in handled && r.handled == handled + {r.action.invitation.session}
    ensures r.action.MarkOnly? ==> r.action.session !in handled && r.handled == handled + {r.action.session}
  {
    match ReadArray(doc)
    case Thrown => StepResult(Stay, handled)
    case Ok(None) => StepResult(Stay, handled)
    case Ok(Some(items)) =>
      match FindOpen(items, patient)
      case Thrown => StepResult(Stay, handled)
      case Ok(None) => StepResult(Stay, handled)
      case Ok(Some(k)) => Decide(items[k], patient, handled)
  }

  /** The open invitation of a readable document, if the search succeeds. */
  function OpenRecord(doc: Stored, patient: string): (r: Option<Json>)
    ensures r.Some? ==> IsOpen(r.value, patient)
  {
    match ReadArray(doc)
    case Ok(Some(items)) =>
      (match FindOpen(items, patient)
       case Ok(Some(k)) => Some(items[k])
       case _ => None)
    case _ => None
  }

  /** A check navigates exactly when there is an open invitation whose
      session is new and whose type is "video" or "audio"; the invitation
      carries that session, the record's doctor and this patient. */
  lemma StepNavigates(doc: Stored, patient: string, handled: set<Json>)
    ensures var r := Step(doc, patient, handled);
      r.action.Navigate? <==>
        && OpenRecord(doc, patient).Some?
        && Get(OpenRecord(doc, patient).value, "callSessionId").value !in handled
        && RouteOf(Get(OpenRecord(doc, patient).value, "callType")).Some?
    ensures var r := Step(doc, patient, handled);
      r.action.Navigate? ==>
        var a := OpenRecord(doc, patient).value;
        && r.action.route == RouteOf(Get(a, "callType")).value
        && r.action.invitation.session == Get(a, "callSessionId").value
        && r.action.invitation.patient == PatientInfo(Or(Get(a, "patientId"), Get(a, "id")), patient)
        && r.action.invitation.doctor == DoctorOf(a)
        && r.action.invitation.callType == (if r.action.route == VideoCall then "video" else "audio")
  {
  }

  /** The reset branch is dead: the record found always has a truthy
      `callSessionId`, so a check never clears the handled set. */
  lemma StepNeverResets(doc: Stored, patient: string, handled: set<Json>)
    ensures !Step(doc, patient, handled).action.ResetHandled?
    ensures handled <= Step(doc, patient, handled).handled
  {
    match ReadArray(doc) {
      case Ok(Some(items)) =>
        match FindOpen(items, patient) {
          case Ok(Some(k)) =>
            assert Truthy(Get(items[k], "callSessionId"));
          case _ =>
        }
      case _ =>
    }
  }

  /** Checking the same document again right after a check does nothing:
      the session found, if any, is already handled. */
  lemma StepSettles(doc: Stored, patient: string, handled: set<Json>)
    ensures var r := Step(doc, patient, handled);
      Step(doc, patient, r.handled) == StepResult(Stay, r.handled)
  {
    var r := Step(doc, patient, handled);
    match ReadArray(doc) {
      case Ok(Some(items)) =>
        match FindOpen(items, patient) {
          case Ok(Some(k)) =>
            var sid := Get(items[k], "callSessionId");
            assert Truthy(sid);
            assert sid.value in r.handled;
          case _ =>
        }
      case _ =>
    }
  }

  /** A malformed document (not JSON, `null`, an object) never raises and
      never announces a call. */
  lemma MalformedDocumentIsQuiet(patient: string, handled: set<Json>)
    ensures Step(Unparseable, patient, handled) == StepResult(Stay, handled)
    ensures Step(Parsed(JNull), patient, handled) == StepResult(Stay, handled)
    ensures Step(Parsed(JObj(map[])), patient, handled) == StepResult(Stay, handled)
  {
  }

  // ---------------------------------------------------------------------
  // A sequence of checks

  /** The session an action announces (navigates to or marks), if any. */
  function Announced(a: Action): Option<Json>
  {
    match a
    case Navigate(_, inv) => Some(inv.session)
    case MarkOnly(s) => Some(s)
    case _ => None
  }

  datatype Trace = Trace(actions: seq<Action>, handled: set<Json>)

  /** The checks triggered by successive observations of the document
      (the initial mount, `storage` events for the appointments key). */
  function Run(docs: seq<Stored>, patient: string, handled: set<Json>): (t: Trace)
    ensures |t.actions| == |docs|
    ensures t.handled == handled + AnnouncedSessions(t.actions)
    decreases |docs|
  {
    if |docs| == 0 then Trace([], handled)
    else
      var r := Step(docs[0], patient, handled);
      var rest := Run(docs[1..], patient, r.handled);
      StepNeverResets(docs[0], patient, handled);
      AnnouncedSessionsCons(r.action, rest.actions);
      Trace([r.action] + rest.actions, rest.handled)
  }

  /** The sessions a sequence of actions announces. */
  function AnnouncedSessions(actions: seq<Action>): set<Json>
  {
    set i | 0 <= i < |actions| && Announced(actions[i]).Some? :: Announced(actions[i]).value
  }

  /** The session one action announces, as a set. */
  function AnnouncedBy(a: Action): set<Json>
  {
    if Announced(a).Some? then {Announced(a).value} else {}
  }

  /** The sessions of a sequence led by `a` are those `a` announces and
      those of the rest. */
  lemma AnnouncedSessionsCons(a: Action, tail: seq<Action>)
    ensures AnnouncedSessions([a] + tail) == AnnouncedBy(a) + AnnouncedSessions(tail)
  {
    var all := [a] + tail;
    forall x | x in AnnouncedSessions(all) ensures x in AnnouncedBy(a) + AnnouncedSessions(tail) {
      var i :| 0 <= i < |all| && Announced(all[i]).Some? && Announced(all[i]).value == x;
      if i > 0 {
        assert all[i] == tail[i - 1];
      }
    }
    forall x | x in AnnouncedSessions(tail) ensures x in AnnouncedSessions(all) {
      var i :| 0 <= i < |tail| && Announced(tail[i]).Some? && Announced(tail[i]).value == x;
      assert all[i + 1] == tail[i];
    }
    if Announced(a).Some? {
      assert all[0] == a;
    }
  }

  /** Along any run, the handled set only grows, every announced session
      was not handled before the run, and ends up handled. */
  lemma {:induction false} RunAnnouncesNew(docs: seq<Stored>, patient: string, handled: set<Json>)
    ensures handled <= Run(docs, patient, handled).handled
    ensures forall i :: 0 <= i < |docs| && Announced(Run(docs, patient, handled).actions[i]).Some? ==>
      && Announced(Run(docs, patient, handled).actions[i]).value !in handled
      && Announced(Run(docs, patient, handled).actions[i]).value in Run(docs, patient, handled).handled
    decreases |docs|
  {
    if |docs| > 0 {
      var r := Step(docs[0], patient, handled);
      StepNeverResets(docs[0], patient, handled);
      RunAnnouncesNew(docs[1..], patient, r.handled);
      var t := Run(docs, patient, handled);
      forall i | 0 <= i < |docs| && Announced(t.actions[i]).Some?
        ensures Announced(t.actions[i]).value !in handled
        ensures Announced(t.actions[i]).value in t.handled
      {
        if i > 0 {
          assert t.actions[i] == Run(docs[1..], patient, r.handled).actions[i - 1];
        }
      }
    }
  }

  /** Each session is announced at most once along a run. */
  lemma {:induction false} AnnouncedAtMostOnce(docs: seq<Stored>, patient: string, handled: set<Json>, i: int, j: int)
    requires 0 <= i < j < |docs|
    requires Announced(Run(docs, patient, handled).actions[i]).Some?
    ensures Announced(Run(docs, patient, handled).actions[j]) != Announced(Run(docs, patient, handled).actions[i])
    decreases |docs|
  {
    var r := Step(docs[0], patient, handled);
    var t := Run(docs, patient, handled);
    var tail := Run(docs[1..], patient, r.handled);
    assert t.actions == [r.action] + tail.actions;
    assert t.actions[j] == tail.actions[j - 1];
    if i == 0 {
      assert t.actions[0] == r.action;
      StepNeverResets(docs[0], patient, handled);
      assert Announced(r.action).value in r.handled by {
        assert r.handled == handled + AnnouncedBy(r.action);
      }
      RunAnnouncesNew(docs[1..], patient, r.handled);
      if Announced(tail.actions[j - 1]).Some? {
        assert Announced(tail.actions[j - 1]).value !in r.handled;
      }
      assert Announced(t.actions[j]) != Announced(t.actions[0]);
    } else {
      assert t.actions[i] == tail.actions[i - 1];
      AnnouncedAtMostOnce(docs[1..], patient, r.handled, i - 1, j - 1);
      assert Announced(t.actions[j]) != Announced(t.actions[i]);
    }
  }

  /** Re-observing a fixed document: after the first check every further
      check does nothing. */
  lemma {:induction false} RepeatedDocumentSettles(doc: Stored, n: nat, patient: string, handled: set<Json>)
    requires n >= 1
    ensures var t := Run(seq(n, _ => doc), patient, handled);
      forall i :: 1 <= i < n ==> t.actions[i] == Stay
    decreases n
  {
    var docs := seq(n, _ => doc);
    var r := Step(doc, patient, handled);
    if n > 1 {
      assert docs[1..] == seq(n - 1, _ => doc);
      StaysWhenSettled(doc, n - 1, patient, r.handled, handled);
    }
  }

  /** From a handled set produced by a check of `doc`, any number of further
      checks of `doc` all stay. */
  lemma {:induction false} StaysWhenSettled(doc: Stored, n: nat, patient: string, h: set<Json>, before: set<Json>)
    requires h == Step(doc, patient, before).handled
    ensures var t := Run(seq(n, _ => doc), patient, h);
      t.handled == h && forall i :: 0 <= i < n ==> t.actions[i] == Stay
    decreases n
  {
    StepSettles(doc, patient, before);
    if n > 0 {
      var docs := seq(n, _ => doc);
      assert docs[0] == doc;
      assert docs[1..] == seq(n - 1, _ => doc);
      StaysWhenSettled(doc, n - 1, patient, h, before);
    }
  }

  // ---------------------------------------------------------------------
  // The intended re-arming

  /** The check with the re-arm that the comment at Home.js:268 describes
      ("reset handled IDs to allow future calls"): when the readable
      document holds no open invitation for this patient, the handled set
      is cleared, so a later invitation (even one reusing a session id) is
      announced again. */
  function StepIntended(doc: Stored, patient: string, handled: set<Json>): (r: StepResult)
    ensures r.action.ResetHandled? ==> r.handled == {}
    ensures r.action.Stay? ==> r.handled == handled
    ensures OpenRecord(doc, patient).Some? ==> r == Step(doc, patient, handled)
    ensures !r.action.ResetHandled? ==> r == Step(doc, patient, handled)
    ensures r.action.ResetHandled? <==>
      ReadArray(doc).Ok? && ReadArray(doc).value.Some? && FindOpen(ReadArray(doc).value.value, patient) == Ok(None)
  {
    match ReadArray(doc)
    case Ok(Some(items)) =>
      (match FindOpen(items, patient)
       case Ok(None) => StepResult(ResetHandled, {})
       case _ => Step(doc, patient, handled))
    case _ => Step(doc, patient, handled)
  }

  /** Successive corrected checks. The handled set holds only initial
      and announced sessions, and a run with no reset ends exactly as the
      check as written does. */
  function RunIntended(docs: seq<Stored>, patient: string, handled: set<Json>): (t: Trace)
    ensures |t.actions| == |docs|
    ensures t.handled <= handled + AnnouncedSessions(t.actions)
    ensures (forall i :: 0 <= i < |t.actions| ==> !t.actions[i].ResetHandled?) ==>
      t.handled == handled + AnnouncedSessions(t.actions)
    decreases |docs|
  {
    if |docs| == 0 then Trace([], handled)
    else
      var r := StepIntended(docs[0], patient, handled);
      var rest := RunIntended(docs[1..], patient, r.handled);
      AnnouncedSessionsCons(r.action, rest.actions);
      StepNeverResets(docs[0], patient, handled);
      assert !r.action.ResetHandled? ==> r.handled == handled + AnnouncedBy(r.action);
      assert r.action.ResetHandled? ==> r.handled == {};
      var t := Trace([r.action] + rest.actions, rest.handled);
      assert t.actions[0] == r.action;
      assert (forall i :: 0 <= i < |t.actions| ==> !t.actions[i].ResetHandled?) ==>
        (forall i :: 0 <= i < |rest.actions| ==> !rest.actions[i].ResetHandled?) by {
        forall i | 0 <= i < |rest.actions| ensures rest.actions[i] == t.actions[i + 1] { }
      }
      t
  }

  /** Re-arm: after a withdrawal (a readable document with no open
      invitation for this patient) the next open invitation of a known
      type is announced, whatever was handled before. */
  lemma ReArmAfterWithdrawal(withdrawn: Stored, invite: Stored, patient: string, handled: set<Json>)
    requires ReadArray(withdrawn).Ok? && ReadArray(withdrawn).value.Some?
    requires FindOpen(ReadArray(withdrawn).value.value, patient) == Ok(None)
    requires OpenRecord(invite, patient).Some?
    requires RouteOf(Get(OpenRecord(invite, patient).value, "callType")).Some?
    ensures StepIntended(withdrawn, patient, handled) == StepResult(ResetHandled, {})
    ensures StepIntended(invite, patient, {}).action.Navigate?
  {
    StepNavigates(invite, patient, {});
  }

  /** The appointments document holding one record for `patient`, with the
      given extra fields. */
  function OneRecord(patient: string, fields: map<string, Json>): Stored
  {
    Parsed(JArr([JObj(fields["patientName" := JStr(patient)])]))
  }

  /** An open video call with session "S". */
  function VideoInvite(patient: string): Stored
  {
    OneRecord(patient, map["callType" := JStr("video"), "callSessionId" := JStr("S")])
  }

  /** The same record after the doctor withdrew the call. */
  function Withdrawn(patient: string): Stored
  {
    OneRecord(patient, map[])
  }

  lemma VideoInviteIsOpen(patient: string)
    ensures OpenRecord(VideoInvite(patient), patient).Some?
    ensures Get(OpenRecord(VideoInvite(patient), patient).value, "callSessionId") == Some(JStr("S"))
    ensures RouteOf(Get(OpenRecord(VideoInvite(patient), patient).value, "callType")) == Some(VideoCall)
  {
    var a := JObj(map["callType" := JStr("video"), "callSessionId" := JStr("S")]["patientName" := JStr(patient)]);
    assert IsOpen(a, patient);
    assert FindOpen([a], patient) == Ok(Some(0));
  }

  lemma WithdrawnHasNoInvite(patient: string)
    ensures ReadArray(Withdrawn(patient)) == Ok(Some([JObj(map["patientName" := JStr(patient)])]))
    ensures FindOpen(ReadArray(Withdrawn(patient)).value.value, patient) == Ok(None)
  {
    var a := JObj(map["patientName" := JStr(patient)]);
    assert map[]["patientName" := JStr(patient)] == map["patientName" := JStr(patient)];
    assert !IsOpen(a, patient);
    assert FindOpen([a][1..], patient) == Ok(None);
  }

  /** As written: invite with session "S", withdraw, invite with "S" again.
      The second invitation is never announced. */
  lemma {:induction false} ReinviteIsMissed(patient: string)
    ensures var t := Run([VideoInvite(patient), Withdrawn(patient), VideoInvite(patient)], patient, {});
      t.actions[0].Navigate? && t.actions[1] == Stay && t.actions[2] == Stay
  {
    var invite, withdrawn := VideoInvite(patient), Withdrawn(patient);
    VideoInviteIsOpen(patient);
    WithdrawnHasNoInvite(patient);
    StepNavigates(invite, patient, {});
    var r0 := Step(invite, patient, {});
    assert r0.handled == {JStr("S")};
    var r1 := Step(withdrawn, patient, r0.handled);
    assert r1 == StepResult(Stay, {JStr("S")});
    StepNavigates(invite, patient, r1.handled);
    var r2 := Step(invite, patient, r1.handled);
    assert r2.action == Stay;
    var docs := [invite, withdrawn, invite];
    assert docs[1..] == [withdrawn, invite];
    assert docs[1..][1..] == [invite];
    var t2 := Run([invite], patient, r1.handled);
    assert t2.actions == [r2.action];
    var t1 := Run([withdrawn, invite], patient, r0.handled);
    assert t1.actions == [r1.action] + t2.actions;
    assert Run(docs, patient, {}).actions == [r0.action] + t1.actions;
  }

  /** Corrected: the same sequence resets on the withdrawal and announces
      the renewed invitation. */
  lemma {:induction false} ReinviteIsAnnounced(patient: string)
    ensures var t := RunIntended([VideoInvite(patient), Withdrawn(patient), VideoInvite(patient)], patient, {});
      t.actions[0].Navigate? && t.actions[1] == ResetHandled && t.actions[2].Navigate?
  {
    var invite, withdrawn := VideoInvite(patient), Withdrawn(patient);
    VideoInviteIsOpen(patient);
    WithdrawnHasNoInvite(patient);
    StepNavigates(invite, patient, {});
    var r0 := StepIntended(invite, patient, {});
    ReArmAfterWithdrawal(withdrawn, invite, patient, r0.handled);
    var r1 := StepIntended(withdrawn, patient, r0.handled);
    var r2 := StepIntended(invite, patient, r1.handled);
    var docs := [invite, withdrawn, invite];
    assert docs[1..] == [withdrawn, invite];
    assert docs[1..][1..] == [invite];
    var t2 := RunIntended([invite], patient, r1.handled);
    assert t2.actions == [r2.action];
    var t1 := RunIntended([withdrawn, invite], patient, r0.handled);
    assert t1.actions == [r1.action] + t2.actions;
    assert RunIntended(docs, patient, {}).actions == [r0.action] + t1.actions;
  }
}

=== FILE: json.dfy ===
/** The shared appointments document as the browser sees it: the JSON text
    stored under the `helio_appointments` key, after `JSON.parse`.

    Numbers are modelled as integers (the portal only compares them for
    truthiness and identity); object keys form a map, so duplicate keys and
    key order (which `JSON.parse` resolves) are not represented. */
module Json {
  import opened Wrappers

  datatype Json =
    | JNull
    | JBool(b: bool)
    | JNum(n: int)
    | JStr(s: string)
    | JArr(items: seq<Json>)
    | JObj(fields: map<string, Json>)

  /** JavaScript truthiness of a value that may be `undefined` (None). */
  predicate Truthy(v: Option<Json>)
  {
    match v
    case None => false
    case Some(JNull) => false
    case Some(JBool(b)) => b
    case Some(JNum(n)) => n != 0
    case Some(JStr(s)) => s != ""
    case Some(JArr(_)) => true
    case Some(JObj(_)) => true
  }

  /** String conversion of a parsed value (`${v}`) throws a TypeError. An
      object with an own `toString` key throws: `JSON.parse` can only make
      that key a non-callable value, so the conversion falls through to the
      inherited `valueOf`, which returns the object itself, not a primitive.
      An array converts through `join`, which converts every element
      except `null`, so it throws exactly when an element does. */
  predicate ToStringThrows(v: Json)
  {
    match v
    case JObj(fields) => "toString" in fields
    case JArr(items) => exists i :: 0 <= i < |items| && ToStringThrows(items[i])
    case _ => false
  }

  /** `v[key]` for a value that is known not to be `null`: an own field of
      an object, and `undefined` for every primitive or array (none of the
      keys the portal reads is an inherited property). */
  function Get(v: Json, key: string): (r: Option<Json>)
    ensures r.Some? ==> v.JObj? && key in v.fields && r.value == v.fields[key]
    ensures v.JObj? && key in v.fields ==> r.Some?
  {
    match v
    case JObj(fields) => if key in fields then Some(fields[key]) else None
    case _ => None
  }

  /** `v?.key`: optional chaining yields `undefined` on `null`/`undefined`. */
  function OptProp(v: Option<Json>, key: string): (r: Option<Json>)
    ensures v.None? || v == Some(JNull) ==> r.None?
    ensures v.Some? && !v.value.JNull? ==> r == Get(v.value, key)
  {
    match v
    case None => None
    case Some(JNull) => None
    case Some(x) => Get(x, key)
  }

  /** `a || b` on possibly-undefined values. The result is truthy exactly
      when either operand is. */
  function Or(a: Option<Json>, b: Option<Json>): (r: Option<Json>)
    ensures Truthy(a) ==> r == a
    ensures !Truthy(a) ==> r == b
    ensures Truthy(r) <==> Truthy(a) || Truthy(b)
  {
    if Truthy(a) then a else b
  }

  /** `(a || b) || c` and `a || (b || c)` agree, so a chain of fallbacks
      may be read either way. */
  lemma OrAssociative(a: Option<Json>, b: Option<Json>, c: Option<Json>)
    ensures Or(Or(a, b), c) == Or(a, Or(b, c))
  {
  }

  /** Repeating an operand later in a chain never changes the result once
      an earlier operand is truthy, and otherwise yields that operand's
      (falsy) value. */
  lemma OrRepeated(a: Option<Json>, b: Option<Json>)
    ensures Truthy(Or(a, b)) ==> Or(Or(a, b), a) == Or(a, b)
    ensures !Truthy(Or(a, b)) ==> Or(Or(a, b), a) == a
  {
  }

  /** The raw string returned by `localStorage.getItem`, classified by what
      `JSON.parse` makes of it. */
  datatype Stored =
    | Absent               // null or the empty string
    | Unparseable          // JSON.parse throws a SyntaxError
    | Parsed(value: Json)  // JSON.parse succeeds

  /** `raw ? JSON.parse(raw) : []` */
  function ReadDoc(doc: Stored): (r: Result<Json>)
    ensures doc.Absent? ==> r == Ok(JArr([]))
    ensures r.Thrown? <==> doc.Unparseable?
    ensures doc.Parsed? ==> r == Ok(doc.value)
  {
    match doc
    case Absent => Ok(JArr([]))
    case Unparseable => Thrown
    case Parsed(v) => Ok(v)
  }

  /** `Array.isArray(arr)` after a successful read: the elements, if any. */
  function ReadArray(doc: Stored): (r: Result<Option<seq<Json>>>)
    ensures r.Thrown? <==> doc.Unparseable?
    ensures doc.Absent? ==> r == Ok(Some([]))
    ensures doc.Parsed? && doc.value.JArr? ==> r == Ok(Some(doc.value.items))
    ensures doc.Parsed? && !doc.value.JArr? ==> r == Ok(None)
  {
    match ReadDoc(doc)
    case Thrown => Thrown
    case Ok(v) => if v.JArr? then Ok(Some(v.items)) else Ok(None)
  }
}

=== FILE: jsstring.dfy ===
/** The JavaScript string primitives the portal's decision procedures use:
    `split` on a one-character separator, `parseInt(s, 10)`, ASCII case
    mapping and `includes`. */
module JsString {
  import opened Wrappers

  // ---------------------------------------------------------------------
  // String.prototype.split with a one-character separator

  /** `s.split(c)`: the pieces between occurrences of `c`; the empty string
      splits into one empty piece. */
  function Split(s: string, c: char): (r: seq<string>)
    ensures |r| >= 1
    decreases |s|
  {
    if |s| == 0 then [""]
    else
      var rest := Split(s[1..], c);
      if s[0] == c then [""] + rest
      else [[s[0]] + rest[0]] + rest[1..]
  }

  /** `parts.join(c)` */
  function Join(parts: seq<string>, c: char): string
    requires |parts| >= 1
    decreases |parts|
  {
    if |parts| == 1 then parts[0] else parts[0] + [c] + Join(parts[1..], c)
  }

  /** Element `i` of a split, as JavaScript array destructuring sees it:
      `undefined` past the end. */
  function Piece(parts: seq<string>, i: nat): (r: Option<string>)
    ensures r.Some? <==> i < |parts|
    ensures i < |parts| ==> r == Some(parts[i])
  {
    if i < |parts| then Some(parts[i]) else None
  }

  /** No piece of a split contains the separator. */
  lemma {:induction false} SplitPiecesAvoidSeparator(s: string, c: char)
    ensures forall i :: 0 <= i < |Split(s, c)| ==> c !in Split(s, c)[i]
    decreases |s|
  {
    if |s| > 0 {
      SplitPiecesAvoidSeparator(s[1..], c);
    }
  }

  /** Joining the pieces back with the separator restores the string. */
  lemma {:induction false} JoinSplit(s: string, c: char)
    ensures Join(Split(s, c), c) == s
    decreases |s|
  {
    if |s| > 0 {
      var rest := Split(s[1..], c);
      JoinSplit(s[1..], c);
      if s[0] == c {
        assert Split(s, c)[1..] == rest;
        assert s == [] + [c] + s[1..];
      } else {
        var r := Split(s, c);
        assert r[1..] == rest[1..];
        if |rest| == 1 {
          assert s == [s[0]] + rest[0];
        } else {
          assert Join(rest, c) == rest[0] + [c] + Join(rest[1..], c);
          assert s == [s[0]] + rest[0] + [c] + Join(rest[1..], c);
        }
      }
    }
  }

  /** A string without the separator splits into itself alone. */
  lemma {:induction false} SplitWithoutSeparator(a: string, c: char)
    requires c !in a
    ensures Split(a, c) == [a]
    decreases |a|
  {
    if |a| > 0 {
      assert c !in a[1..] by {
        forall k | 0 <= k < |a[1..]| ensures a[1..][k] != c {
          assert a[1..][k] == a[k + 1];
        }
      }
      SplitWithoutSeparator(a[1..], c);
      assert [a[0]] + a[1..] == a;
    }
  }

  /** A string holding the separator splits into at least two pieces. */
  lemma {:induction false} SplitSeveral(a: string, c: char)
    requires c in a
    ensures |Split(a, c)| >= 2
    decreases |a|
  {
    if a[0] != c {
      assert c in a[1..] by {
        var k :| 0 <= k < |a| && a[k] == c;
        assert a[1..][k - 1] == c;
      }
      SplitSeveral(a[1..], c);
    }
  }

  /** The first separator ends the first piece. */
  lemma {:induction false} SplitAtFirst(a: string, b: string, c: char)
    requires c !in a
    ensures Split(a + [c] + b, c) == [a] + Split(b, c)
    decreases |a|
  {
    var s := a + [c] + b;
    if |a| == 0 {
      assert s[1..] == b;
    } else {
      assert s[1..] == a[1..] + [c] + b;
      assert c !in a[1..] by {
        forall k | 0 <= k < |a[1..]| ensures a[1..][k] != c {
          assert a[1..][k] == a[k + 1];
        }
      }
      SplitAtFirst(a[1..], b, c);
      assert [a[0]] + a[1..] == a;
    }
  }

  /** Splitting a join of separator-free pieces gives the pieces back. */
  lemma {:induction false} SplitJoin(parts: seq<string>, c: char)
    requires |parts| >= 1
    requires forall i :: 0 <= i < |parts| ==> c !in parts[i]
    ensures Split(Join(parts, c), c) == parts
    decreases |parts|
  {
    if |parts| == 1 {
      SplitWithoutSeparator(parts[0], c);
    } else {
      SplitJoin(parts[1..], c);
      SplitAtFirst(parts[0], Join(parts[1..], c), c);
      assert [parts[0]] + parts[1..] == parts;
    }
  }

  // ---------------------------------------------------------------------
  // parseInt(s, 10)

  /** The WhiteSpace and LineTerminator code points parseInt skips. */
  predicate IsWhite(ch: char)
  {
    ch == '\t' || ch == '\n' || ch == '\U{000B}' || ch == '\U{000C}' || ch == '\r'
    || ch == ' ' || ch == '\U{00A0}' || ch == '\U{1680}'
    || ('\U{2000}' <= ch <= '\U{200A}') || ch == '\U{2028}' || ch == '\U{2029}'
    || ch == '\U{202F}' || ch == '\U{205F}' || ch == '\U{3000}' || ch == '\U{FEFF}'
  }

  predicate IsDigit(ch: char)
  {
    '0' <= ch <= '9'
  }

  predicate AllDigits(s: string)
  {
    forall i :: 0 <= i < |s| ==> IsDigit(s[i])
  }

  /** Leading white space removed. */
  function TrimStart(s: string): (r: string)
    ensures |r| <= |s| && r == s[|s| - |r|..]
    ensures |r| > 0 ==> !IsWhite(r[0])
    ensures forall i :: 0 <= i < |s| - |r| ==> IsWhite(s[i])
    decreases |s|
  {
    if |s| > 0 && IsWhite(s[0]) then TrimStart(s[1..]) else s
  }

  /** The longest prefix made of decimal digits. */
  function DigitPrefix(s: string): (r: string)
    ensures |r| <= |s| && r == s[..|r|]
    ensures AllDigits(r)
    ensures |r| < |s| ==> !IsDigit(s[|r|])
    decreases |s|
  {
    if |s| > 0 && IsDigit(s[0]) then [s[0]] + DigitPrefix(s[1..]) else ""
  }

  /** The decimal value of a digit string, most significant digit first. */
  function DigitsValue(d: string): (v: nat)
    requires AllDigits(d)
    decreases |d|
  {
    if |d| == 0 then 0
    else DigitsValue(d[..|d| - 1]) * 10 + (d[|d| - 1] as int - '0' as int)
  }

  /** The text after an optional leading sign. */
  function Unsigned(t: string): (r: string)
    ensures |t| > 0 && (t[0] == '-' || t[0] == '+') ==> r == t[1..]
    ensures |t| == 0 || (t[0] != '-' && t[0] != '+') ==> r == t
  {
    if |t| > 0 && (t[0] == '-' || t[0] == '+') then t[1..] else t
  }

  /** `parseInt(s, 10)`, with None standing for NaN. The float rounding of
      very long digit strings is not represented. */
  function ParseInt(s: string): (r: Option<int>)
    ensures r.Some? ==> exists i :: 0 <= i < |s| && IsDigit(s[i])
    ensures r.Some? && r.value < 0 ==> |TrimStart(s)| > 0 && TrimStart(s)[0] == '-'
  {
    var t := TrimStart(s);
    var u := Unsigned(t);
    var digits := DigitPrefix(u);
    if digits == "" then None
    else
      var v: int := DigitsValue(digits);
      var at := |s| - |u|;
      assert s[at] == u[0] == digits[0];
      if |t| > 0 && t[0] == '-' then Some(-v) else Some(v)
  }

  /** parseInt yields NaN exactly when, after white space and an optional
      sign, no decimal digit follows. */
  lemma ParseIntNaN(s: string)
    ensures ParseInt(s).None? <==>
      var body := Unsigned(TrimStart(s));
      |body| == 0 || !IsDigit(body[0])
  {
  }

  /** A non-empty digit string parses to its decimal value, and a digit
      string followed by a non-digit suffix parses the same way. */
  lemma {:induction false} ParseIntDigits(d: string, suffix: string)
    requires |d| > 0 && AllDigits(d)
    requires |suffix| > 0 ==> !IsDigit(suffix[0])
    ensures ParseInt(d + suffix) == Some(DigitsValue(d))
  {
    var s := d + suffix;
    assert s[0] == d[0];
    assert IsDigit(s[0]);
    assert !IsWhite(s[0]);
    assert TrimStart(s) == s;
    assert Unsigned(s) == s;
    DigitPrefixOfDigits(d, suffix);
  }

  lemma {:induction false} DigitPrefixOfDigits(d: string, suffix: string)
    requires AllDigits(d)
    requires |suffix| > 0 ==> !IsDigit(suffix[0])
    ensures DigitPrefix(d + suffix) == d
    decreases |d|
  {
    if |d| > 0 {
      assert (d + suffix)[1..] == d[1..] + suffix;
      assert AllDigits(d[1..]) by {
        forall k | 0 <= k < |d[1..]| ensures IsDigit(d[1..][k]) {
          assert d[1..][k] == d[k + 1];
        }
      }
      DigitPrefixOfDigits(d[1..], suffix);
      assert [d[0]] + d[1..] == d;
    } else {
      assert d + suffix == suffix;
    }
  }

  // ---------------------------------------------------------------------
  // Case mapping and substring search

  function AsciiUpperChar(ch: char): char
  {
    if 'a' <= ch <= 'z' then (ch as int - 32) as char else ch
  }

  function AsciiLowerChar(ch: char): char
  {
    if 'A' <= ch <= 'Z' then (ch as int + 32) as char else ch
  }

  predicate IsAsciiLower(ch: char)
  {
    'a' <= ch <= 'z'
  }

  predicate IsAsciiUpper(ch: char)
  {
    'A' <= ch <= 'Z'
  }

  /** `s.toUpperCase()` on ASCII letters: no lower-case letter is left, and
      every character that was not a lower-case letter is kept. */
  function ToUpper(s: string): (r: string)
    ensures |r| == |s|
    ensures forall i :: 0 <= i < |s| ==> r[i] == AsciiUpperChar(s[i])
    ensures forall i :: 0 <= i < |r| ==> !IsAsciiLower(r[i])
    ensures forall i :: 0 <= i < |s| && !IsAsciiLower(s[i]) ==> r[i] == s[i]
  {
    seq(|s|, i requires 0 <= i < |s| => AsciiUpperChar(s[i]))
  }

  /** `s.toLowerCase()` on ASCII letters: no upper-case letter is left, and
      every character that was not an upper-case letter is kept. */
  function ToLower(s: string): (r: string)
    ensures |r| == |s|
    ensures forall i :: 0 <= i < |s| ==> r[i] == AsciiLowerChar(s[i])
    ensures forall i :: 0 <= i < |r| ==> !IsAsciiUpper(r[i])
    ensures forall i :: 0 <= i < |s| && !IsAsciiUpper(s[i]) ==> r[i] == s[i]
  {
    seq(|s|, i requires 0 <= i < |s| => AsciiLowerChar(s[i]))
  }

  /** Upper-casing twice is upper-casing once. */
  lemma UpperIdempotent(s: string)
    ensures ToUpper(ToUpper(s)) == ToUpper(s)
  {
  }

  /** Lower-casing twice is lower-casing once. */
  lemma LowerIdempotent(s: string)
    ensures ToLower(ToLower(s)) == ToLower(s)
  {
  }

  /** Lower-casing forgets an earlier upper-casing, and the other way round. */
  lemma CaseRoundTrip(s: string)
    ensures ToLower(ToUpper(s)) == ToLower(s)
    ensures ToUpper(ToLower(s)) == ToUpper(s)
  {
    assert forall i :: 0 <= i < |s| ==> AsciiLowerChar(AsciiUpperChar(s[i])) == AsciiLowerChar(s[i]);
    assert forall i :: 0 <= i < |s| ==> AsciiUpperChar(AsciiLowerChar(s[i])) == AsciiUpperChar(s[i]);
  }

  /** `s.startsWith(t)` */
  predicate StartsWith(s: string, t: string)
  {
    |t| <= |s| && s[..|t|] == t
  }

  /** `t` occurs in `s` starting at position `i`. */
  predicate OccursAt(s: string, t: string, i: int)
  {
    0 <= i && i + |t| <= |s| && s[i..i + |t|] == t
  }

  /** `s.includes(t)`: scans the start positions left to right. */
  predicate Includes(s: string, t: string)
    decreases |s|
  {
    StartsWith(s, t) || (|s| > 0 && Includes(s[1..], t))
  }

  /** `includes` holds exactly when `t` occurs at some position of `s`. */
  lemma {:induction false} IncludesOccurs(s: string, t: string)
    ensures Includes(s, t) <==> exists i :: OccursAt(s, t, i)
    decreases |s|
  {
    if StartsWith(s, t) {
      assert s[0..|t|] == s[..|t|];
      assert OccursAt(s, t, 0);
    }
    if |s| > 0 {
      IncludesOccurs(s[1..], t);
      if Includes(s[1..], t) {
        var i :| OccursAt(s[1..], t, i);
        assert s[i + 1..i + 1 + |t|] == s[1..][i..i + |t|];
        assert OccursAt(s, t, i + 1);
      }
      if exists i :: OccursAt(s, t, i) {
        var i :| OccursAt(s, t, i);
        if i > 0 {
          assert s[1..][i - 1..i - 1 + |t|] == s[i..i + |t|];
          assert OccursAt(s[1..], t, i - 1);
        } else {
          assert StartsWith(s, t);
        }
      }
    } else {
      if exists i :: OccursAt(s, t, i) {
        var i :| OccursAt(s, t, i);
        assert StartsWith(s, t);
      }
    }
  }

  /** Every string includes the empty string. */
  lemma IncludesEmpty(s: string)
    ensures Includes(s, "")
  {
    assert StartsWith(s, "");
  }
}

=== FILE: push.dfy ===
/** The push notification manager (pushNotifications.js): capability
    checks, the permission flow, service-worker registration and push
    subscription, the local notification shown for an event, and the
    decoding of the application server key.

    The browser is a parameter: which globals exist, the current
    `Notification.permission`, the user's answer to the permission prompt,
    which platform calls fail, and `window.atob`. The manager's two fields
    become a value passed in and returned. */
module PushNotifications {
  import opened Wrappers

  // ---------------------------------------------------------------------
  // The browser

  /** `Notification.permission` */
  datatype Permission = Default | Granted | Denied

  /** What `Notification.requestPermission()` settles to: the user's
      choice, or a rejection with an error message. */
  datatype Answer = Chose(choice: Permission) | Rejected(message: string)

  datatype Platform = Platform(
    hasWindow: bool,          // typeof window !== 'undefined'
    hasNavigator: bool,       // typeof navigator !== 'undefined'
    hasServiceWorker: bool,   // 'serviceWorker' in navigator
    hasPushManager: bool,     // 'PushManager' in window
    hasNotification: bool,    // 'Notification' in window
    permission: Permission,
    answer: Answer,
    registerFails: bool,      // navigator.serviceWorker.register rejects
    subscribeFails: bool,     // pushManager.subscribe rejects
    showFails: bool,          // new Notification(...) throws
    atob: string -> Option<string>)  // None: InvalidCharacterError

  /** The manager's state: whether a registration and a subscription have
      been obtained. */
  datatype Manager = Manager(registered: bool, subscribed: bool)

  /** `n` copies of `s`, one after the other. */
  function Repeat(s: string, n: nat): (r: string)
    ensures |r| == n * |s|
    ensures forall i :: 0 <= i < |r| ==> r[i] in s
    decreases n
  {
    if n == 0 then "" else s + Repeat(s, n - 1)
  }

  /** The demo application server key: "BK8J" followed by 32 copies of
      "5K", 68 characters in all. */
  const DemoKey: string := "BK8J" + Repeat("5K", 32)

  // ---------------------------------------------------------------------
  // Capability checks

  /** `isSupported()`: never raises; all five capabilities are present. A
      supported platform reports its permission as its status. */
  predicate IsSupported(p: Platform): (b: bool)
    ensures b ==> PermissionStatus(p) == Known(p.permission)
  {
    if !p.hasWindow || !p.hasNavigator then false
    else p.hasServiceWorker && p.hasPushManager && p.hasNotification
  }

  datatype Status = Known(permission: Permission) | Unsupported

  /** `getPermissionStatus()` */
  function PermissionStatus(p: Platform): (s: Status)
    ensures s.Unsupported? <==> !p.hasWindow || !p.hasNotification
    ensures s.Known? ==> s.permission == p.permission
  {
    if !p.hasWindow || !p.hasNotification then Unsupported else Known(p.permission)
  }

  /** Where the platform is supported, the status is the permission. */
  lemma SupportedHasStatus(p: Platform)
    requires IsSupported(p)
    ensures PermissionStatus(p) == Known(p.permission)
  {
  }

  /** What a promise-returning call settles to: a value, or a rejection
      with the error's message. */
  datatype Settled<+T> = Resolved(value: T) | Raised(message: string)

  /** `requestPermission()`: the user's answer when the Notification API
      exists, 'denied' otherwise; without a `window` the `in` test itself
      raises a ReferenceError. */
  function RequestPermission(p: Platform): (r: Settled<Permission>)
    ensures !p.hasWindow ==> r.Raised?
    ensures p.hasWindow && !p.hasNotification ==> r == Resolved(Denied)
    ensures p.hasWindow && p.hasNotification ==>
      (r.Resolved? <==> p.answer.Chose?) &&
      (r.Resolved? ==> r.value == p.answer.choice) &&
      (r.Raised? ==> r.message == p.answer.message)
  {
    if !p.hasWindow then Raised("window is not defined")
    else if !p.hasNotification then Resolved(Denied)
    else
      match p.answer
      case Chose(c) => Resolved(c)
      case Rejected(msg) => Raised(msg)
  }

  // ---------------------------------------------------------------------
  // The application server key

  /** `(4 - n % 4) % 4`: the `=` padding a base64 text of length `n` needs. */
  function Padding(n: nat): (k: nat)
    ensures k <= 3
    ensures (n + k) % 4 == 0
    ensures n % 4 == 0 <==> k == 0
  {
    (4 - n % 4) % 4
  }

  /** `s.replace(/from/g, to)` for a one-character pattern: no `from` is
      left (unless it is its own replacement), a text without `from` is
      unchanged, and `to` occurs afterwards exactly when `to` or `from`
      occurred before. */
  function ReplaceAll(s: string, from: char, to: char): (r: string)
    ensures |r| == |s|
    ensures forall i :: 0 <= i < |s| ==> r[i] == (if s[i] == from then to else s[i])
    ensures from != to ==> from !in r
    ensures from !in s ==> r == s
    ensures to in r <==> to in s || from in s
  {
    seq(|s|, i requires 0 <= i < |s| => if s[i] == from then to else s[i])
  }

  /** Replacing a second time changes nothing. */
  lemma ReplaceAllIdempotent(s: string, from: char, to: char)
    ensures ReplaceAll(ReplaceAll(s, from, to), from, to) == ReplaceAll(s, from, to)
  {
  }

  /** The URL-safe key rewritten to the standard base64 alphabet and padded. */
  function StandardBase64(key: string): (b: string)
    ensures |b| % 4 == 0 && |key| <= |b| <= |key| + 3
    ensures '-' !in b && '_' !in b
    ensures forall i :: 0 <= i < |key| ==>
      b[i] == (if key[i] == '-' then '+' else if key[i] == '_' then '/' else key[i])
    ensures forall i :: |key| <= i < |b| ==> b[i] == '='
  {
    var padded := key + seq(Padding(|key|), _ => '=');
    ReplaceAll(ReplaceAll(padded, '-', '+'), '_', '/')
  }

  /** `urlBase64ToUint8Array(key)`: the bytes of `atob` of the standard
      text, each char code truncated to 8 bits by the `Uint8Array` store;
      an `atob` failure raises. */
  function KeyBytes(key: string, atob: string -> Option<string>): (r: Result<seq<int>>)
    ensures r.Thrown? <==> atob(StandardBase64(key)).None?
    ensures r.Ok? ==>
      var raw := atob(StandardBase64(key)).value;
      && |r.value| == |raw|
      && (forall i :: 0 <= i < |raw| ==> 0 <= r.value[i] < 256 && (r.value[i] - raw[i] as int) % 256 == 0)
      && (forall i :: 0 <= i < |raw| && raw[i] as int < 256 ==> r.value[i] == raw[i] as int)
  {
    match atob(StandardBase64(key))
    case None => Thrown
    case Some(raw) => Ok(seq(|raw|, i requires 0 <= i < |raw| => raw[i] as int % 256))
  }

  /** A key already in the standard alphabet, of a length divisible by
      four, is used unchanged. */
  lemma StandardKeyUnchanged(key: string)
    requires |key| % 4 == 0 && '-' !in key && '_' !in key
    ensures StandardBase64(key) == key
  {
    var b := StandardBase64(key);
    assert |b| == |key|;
    forall i | 0 <= i < |key| ensures b[i] == key[i] {
    }
  }

  /** No character of a repetition lies outside the repeated text. */
  lemma RepeatAvoids(s: string, n: nat, c: char)
    requires c !in s
    ensures c !in Repeat(s, n)
  {
    var r := Repeat(s, n);
    forall i | 0 <= i < |r| ensures r[i] != c {
      assert r[i] in s;
    }
  }

  /** The demo key is already standard base64 of a length divisible by
      four: no padding is added and no character is rewritten. */
  lemma DemoKeyIsStandard()
    ensures Padding(|DemoKey|) == 0
    ensures StandardBase64(DemoKey) == DemoKey
  {
    var tail := Repeat("5K", 32);
    assert |tail| == 64;
    RepeatAvoids("5K", 32, '-');
    RepeatAvoids("5K", 32, '_');
    assert '-' !in "BK8J" && '_' !in "BK8J";
    assert DemoKey == "BK8J" + tail;
    assert '-' !in DemoKey && '_' !in DemoKey;
    StandardKeyUnchanged(DemoKey);
  }

  // ---------------------------------------------------------------------
  // Registration and subscription

  /** `subscribe()`: never raises; fails (null) without a registration,
      when the key cannot be decoded, or when the push service refuses. */
  function Subscribe(m: Manager, p: Platform): (r: (Manager, bool))
    ensures r.1 <==> m.registered && KeyBytes(DemoKey, p.atob).Ok? && !p.subscribeFails
    ensures r.1 ==> r.0 == m.(subscribed := true)
    ensures !r.1 ==> r.0 == m
  {
    if !m.registered then (m, false)
    else if KeyBytes(DemoKey, p.atob).Thrown? then (m, false)
    else if p.subscribeFails then (m, false)
    else (m.(subscribed := true), true)
  }

  /** `init()`: registers the service worker and subscribes when the
      permission is already granted; it never asks the user. A missing
      Notification API is only noticed after registering, where reading
      `Notification.permission` raises a ReferenceError that is caught. */
  function Init(m: Manager, p: Platform): (r: (bool, Manager))
    ensures r.0 <==> p.hasWindow && p.hasNavigator && p.hasServiceWorker && p.hasPushManager &&
                     !p.registerFails && p.hasNotification
    ensures r.1.subscribed ==> r.1.registered || m.subscribed
    ensures r.1.subscribed && !m.subscribed ==> p.permission == Granted
  {
    if !p.hasWindow || !p.hasNavigator then (false, m)
    else if !p.hasServiceWorker || !p.hasPushManager then (false, m)
    else if p.registerFails then (false, m)
    else
      var registered := m.(registered := true);
      if !p.hasNotification then (false, registered)
      else if p.permission == Granted then (true, Subscribe(registered, p).0)
      else (true, registered)
  }

  /** `init()` does not depend on how the user would answer a prompt: it
      never requests permission. */
  lemma InitNeverAsks(m: Manager, p: Platform, a: Answer)
    ensures Init(m, p) == Init(m, p.(answer := a))
  {
  }

  /** Where `init` succeeds, the platform is supported. */
  lemma InitSuccessMeansSupported(m: Manager, p: Platform)
    requires Init(m, p).0
    ensures IsSupported(p)
  {
  }

  // ---------------------------------------------------------------------
  // Enabling

  /** `{ success: true, message }` or `{ success: false, error }`. */
  datatype EnableResult = Enabled(message: string) | Failed(error: string)

  /** The state `enablePushNotifications()` leaves: the manager, the
      browser's permission afterwards, and whether the user was asked. */
  datatype EnableOutcome = EnableOutcome(result: EnableResult, manager: Manager, permission: Permission, asked: bool)

  /** `enablePushNotifications()`. The browser records a chosen answer as
      the new `Notification.permission`. */
  function Enable(m: Manager, p: Platform): (r: EnableOutcome)
    ensures !IsSupported(p) ==> r == EnableOutcome(Failed("Push notifications not supported"), m, p.permission, false)
    ensures IsSupported(p) && p.permission == Granted ==> r == EnableOutcome(Enabled("Already enabled"), m, Granted, false)
    ensures IsSupported(p) && p.permission == Denied ==>
      r == EnableOutcome(Failed("Permission denied. Please enable in browser settings."), m, Denied, false)
    ensures r.asked <==> IsSupported(p) && p.permission.Default?
    ensures r.result.Enabled? <==>
      IsSupported(p) && (p.permission == Granted || (p.permission == Default && p.answer == Chose(Granted)))
    ensures r.result.Enabled? ==> r.permission == Granted
    ensures IsSupported(p) && p.permission == Default && p.answer == Chose(Granted) ==>
      r == EnableOutcome(Enabled("Push notifications enabled"), Subscribe(m, p).0, Granted, true)
    ensures IsSupported(p) && p.permission == Default && p.answer.Chose? && p.answer.choice != Granted ==>
      r == EnableOutcome(Failed("Permission denied"), m, p.answer.choice, true)
    ensures IsSupported(p) && p.permission == Default && p.answer.Rejected? ==>
      r == EnableOutcome(Failed(p.answer.message), m, Default, true)
  {
    if !IsSupported(p) then EnableOutcome(Failed("Push notifications not supported"), m, p.permission, false)
    else if p.permission == Granted then EnableOutcome(Enabled("Already enabled"), m, Granted, false)
    else if p.permission == Denied then
      EnableOutcome(Failed("Permission denied. Please enable in browser settings."), m, Denied, false)
    else
      match RequestPermission(p)
      case Raised(msg) => EnableOutcome(Failed(msg), m, p.permission, true)
      case Resolved(choice) =>
        if choice == Granted then
          EnableOutcome(Enabled("Push notifications enabled"), Subscribe(m, p).0, Granted, true)
        else EnableOutcome(Failed("Permission denied"), m, choice, true)
  }

  /** A prompt that is answered with "granted" enables notifications even
      when the subscription cannot be made (for instance before `init`
      registered the service worker). */
  lemma SubscriptionFailureIsNotFatal(m: Manager, p: Platform)
    requires IsSupported(p) && p.permission == Default && p.answer == Chose(Granted)
    requires !m.registered || p.subscribeFails
    ensures Enable(m, p).result == Enabled("Push notifications enabled")
    ensures Enable(m, p).manager == m
  {
  }

  /** A successful enable is stable: enabling again in the resulting
      browser state reports "Already enabled" without asking. */
  lemma EnableIsStable(m: Manager, p: Platform)
    requires Enable(m, p).result.Enabled?
    ensures var r := Enable(m, p);
      Enable(r.manager, p.(permission := r.permission)) ==
        EnableOutcome(Enabled("Already enabled"), r.manager, Granted, false)
  {
  }

  /** A denial is final for the page: every later enable fails without
      asking, whatever the user would answer. */
  lemma DenialIsFinal(m: Manager, p: Platform, a: Answer)
    requires Enable(m, p).permission == Denied
    ensures var r := Enable(m, p);
      var again := Enable(r.manager, p.(permission := Denied, answer := a));
      again.result.Failed? && !again.asked
  {
  }

  // ---------------------------------------------------------------------
  // Showing a notification

  /** `notificationData`: the title, the message and the event type. */
  datatype Event = Event(title: string, message: string, kind: string)

  /** The options passed to the Notification constructor. */
  datatype Options = Options(body: string, icon: string, tag: string, requireInteraction: bool, vibrate: seq<int>)

  /** A displayed notification, with the delay of its automatic close (None:
      it stays until dismissed). */
  datatype Shown = Shown(title: string, options: Options, autoCloseMs: Option<int>)

  /** The event types that need the user's attention. */
  predicate IsUrgent(kind: string)
  {
    kind == "emergency_request" || kind == "incoming_call"
  }

  /** The notification built for an event. */
  function NotificationFor(e: Event): (s: Shown)
    ensures s.title == e.title && s.options.body == e.message && s.options.tag == e.kind
    ensures s.options.icon == "/favicon.svg"
    ensures s.options.requireInteraction <==> IsUrgent(e.kind)
    ensures s.autoCloseMs.None? <==> IsUrgent(e.kind)
    ensures s.autoCloseMs.Some? ==> s.autoCloseMs.value == 5000
    ensures s.options.vibrate == (if e.kind == "incoming_call" then [200, 100, 200] else [100])
  {
    var urgent := e.kind == "emergency_request" || e.kind == "incoming_call";
    Shown(e.title,
          Options(e.message, "/favicon.svg", e.kind, urgent,
                  if e.kind == "incoming_call" then [200, 100, 200] else [100]),
          if e.kind != "incoming_call" && e.kind != "emergency_request" then Some(5000) else None)
  }

  /** `sendPushNotification(data)`: best effort. Nothing is shown without
      the browser globals, without the Notification API, without granted
      permission, or when the constructor throws. */
  function Send(e: Event, p: Platform): (r: Option<Shown>)
    ensures r.Some? <==> p.hasWindow && p.hasNavigator && p.hasNotification && p.permission == Granted && !p.showFails
    ensures r.Some? ==> r.value == NotificationFor(e)
  {
    if !p.hasWindow || !p.hasNavigator then None
    else if p.hasNotification && p.permission == Granted then
      if p.showFails then None else Some(NotificationFor(e))
    else None
  }

  /** An urgent notification asks to stay on screen and is never closed
      automatically; any other one closes itself after five seconds. */
  lemma UrgentStaysOnScreen(e: Event, p: Platform)
    requires Send(e, p).Some?
    ensures Send(e, p).value.options.requireInteraction <==> Send(e, p).value.autoCloseMs.None?
    ensures !IsUrgent(e.kind) ==> Send(e, p).value.autoCloseMs == Some(5000)
  {
  }

  /** Sending needs exactly the permission that enabling establishes: after
      a successful enable on a platform with a working constructor, every
      event is shown. */
  lemma EnabledMeansShown(m: Manager, p: Platform, e: Event)
    requires Enable(m, p).result.Enabled? && !p.showFails
    ensures Send(e, p.(permission := Enable(m, p).permission)) == Some(NotificationFor(e))
  {
  }
}

=== FILE: schedule.dfy ===
/** `toDate` of the patient home page (Home.js): turns an appointment's
    `date` and `"HH:MM [AM|PM]"` `time` fields into a naive local moment.

    JavaScript then builds `new Date(`${date}T${HH}:${MM}:00`)`; whether that
    string denotes a valid instant, and which one, depends on the browser's
    local time zone. That step is the abstract `stamp` function the
    aggregate computation takes as a parameter; this module stops at the
    (date, hour, minute) triple it is built from. */
module Schedule {
  import opened Wrappers
  import opened Json
  import opened JsString

  /** The fields the ISO string is composed of: the raw `date` value
      (stringified by the template literal), the resolved 24-hour hour, and
      the minute text taken verbatim. */
  datatype Moment = Moment(date: Json, hour: int, minute: string)

  /** What `toDate` returns: `null`, an Invalid Date (the hour parsed to
      NaN), or a date built from a moment. */
  datatype DateValue = NullDate | InvalidDate | Naive(moment: Moment)

  /** `period.toUpperCase() === 'PM'`, letter by letter. */
  predicate IsPM(period: string)
  {
    |period| == 2 && AsciiUpperChar(period[0]) == 'P' && AsciiUpperChar(period[1]) == 'M'
  }

  /** The letter-by-letter test is the upper-case comparison. */
  lemma IsPMUpperCase(period: string)
    ensures IsPM(period) <==> ToUpper(period) == "PM"
  {
    if ToUpper(period) == "PM" {
      assert ToUpper(period)[0] == 'P' && ToUpper(period)[1] == 'M';
    }
    if IsPM(period) {
      assert ToUpper(period) == "PM";
    }
  }

  /** The 12-hour correction: only a truthy period changes the hour. An
      hour of the day stays one, and with a period an hour from 1 to 12
      lands in the afternoon half of the day exactly when the period is
      PM. */
  function AdjustHour(hh: int, period: Option<string>): (r: int)
    ensures 0 <= hh < 24 ==> 0 <= r < 24
    ensures period.Some? && period.value != "" && 1 <= hh <= 12 ==> (12 <= r <==> IsPM(period.value))
    ensures period.None? || period.value == "" ==> r == hh
  {
    if period.Some? && period.value != "" then
      if IsPM(period.value) && hh < 12 then hh + 12
      else if !IsPM(period.value) && hh == 12 then 0
      else hh
    else hh
  }

  /** `timeStr || '00:00'`, then `.split(' ')`: only a string has `split`,
      so any other truthy value throws a TypeError. */
  function TimeText(time: Option<Json>): (r: Result<string>)
    ensures !Truthy(time) ==> r == Ok("00:00")
    ensures Truthy(time) && time.value.JStr? ==> r == Ok(time.value.s)
    ensures r.Thrown? <==> Truthy(time) && !time.value.JStr?
  {
    if !Truthy(time) then Ok("00:00")
    else if time.value.JStr? then Ok(time.value.s)
    else Thrown
  }

  /** The three pieces destructured from a clock text: the hour text before
      the first colon, the minute text after it (undefined when there is no
      colon) and the period after the first space (undefined when there is
      no space). */
  datatype Clock = Clock(hourText: string, minute: Option<string>, period: Option<string>)

  /** `const [hhmm, period] = text.split(' '); const [hhRaw, mm] = hhmm.split(':');` */
  function ClockOf(text: string): Clock
  {
    var halves := Split(text, ' ');
    var parts := Split(halves[0], ':');
    Clock(parts[0], Piece(parts, 1), Piece(halves, 1))
  }

  /** A period is present exactly when the text holds a space, and a
      minute exactly when the text before the first space holds a colon. */
  lemma ClockOfPresence(text: string)
    ensures ClockOf(text).period.Some? <==> ' ' in text
    ensures ClockOf(text).minute.Some? <==> ':' in Split(text, ' ')[0]
  {
    SplitPieces(text, ' ');
    SplitPieces(Split(text, ' ')[0], ':');
  }

  /** A split has one piece exactly when the separator is absent. */
  lemma SplitPieces(s: string, c: char)
    ensures |Split(s, c)| == 1 <==> c !in s
  {
    if c in s {
      SplitSeveral(s, c);
    } else {
      SplitWithoutSeparator(s, c);
    }
  }

  /** None of the destructured pieces holds the separator that ended it. */
  lemma ClockPiecesAvoidSeparators(text: string)
    ensures var c := ClockOf(text);
      && ' ' !in c.hourText && ':' !in c.hourText
      && (c.minute.Some? ==> ':' !in c.minute.value && ' ' !in c.minute.value)
      && (c.period.Some? ==> ' ' !in c.period.value)
  {
    var halves := Split(text, ' ');
    SplitPiecesAvoidSeparator(text, ' ');
    SplitPiecesAvoidSeparator(halves[0], ':');
    PiecesOfSplitAvoid(halves[0], ':', ' ');
  }

  /** The moment a clock text denotes on a given date, or an Invalid Date
      when the hour text is not a number. */
  function ReadClock(date: Json, c: Clock): (r: DateValue)
    ensures r != NullDate
    ensures r.Naive? ==> r.moment.date == date && r.moment.minute != ""
  {
    match ParseInt(c.hourText)
    case None => InvalidDate
    case Some(hh) =>
      var minute := if c.minute.Some? && c.minute.value != "" then c.minute.value else "00";
      Naive(Moment(date, AdjustHour(hh, c.period), minute))
  }

  /** `toDate(dateStr, timeStr)`. The template literal that builds the ISO
      text converts `dateStr` to a string after the clock text is read, so
      a date whose conversion throws makes `toDate` throw, whatever the
      hour reads as. */
  function ToDate(date: Option<Json>, time: Option<Json>): (r: Result<DateValue>)
    ensures r == Ok(NullDate) <==> !Truthy(date)
    ensures r.Thrown? <==> Truthy(date) && ((Truthy(time) && !time.value.JStr?) || ToStringThrows(date.value))
    ensures r.Ok? && r.value.Naive? ==> r.value.moment.date == date.value
    ensures r.Ok? && r.value.Naive? ==> r.value.moment.minute != ""
  {
    if !Truthy(date) then Ok(NullDate)
    else
      match TimeText(time)
      case Thrown => Thrown
      case Ok(text) =>
        if ToStringThrows(date.value) then Thrown
        else Ok(ReadClock(date.value, ClockOf(text)))
  }

  /** The clock text `hh:mm` or `hh:mm period`. */
  function ClockText(hh: string, mm: string, period: string): string
  {
    hh + ":" + mm + (if period == "" then "" else " " + period)
  }

  lemma NotInConcat(a: string, b: string, ch: char)
    requires ch !in a && ch !in b
    ensures ch !in a + b
  {
    forall k | 0 <= k < |a + b| ensures (a + b)[k] != ch {
      if k < |a| {
        assert (a + b)[k] == a[k];
      } else {
        assert (a + b)[k] == b[k - |a|];
      }
    }
  }

  /** Splitting never introduces a character the text did not hold. */
  lemma {:induction false} PiecesOfSplitAvoid(s: string, c: char, ch: char)
    requires ch !in s
    ensures forall i :: 0 <= i < |Split(s, c)| ==> ch !in Split(s, c)[i]
    decreases |s|
  {
    if |s| > 0 {
      assert ch !in s[1..] by {
        forall k | 0 <= k < |s[1..]| ensures s[1..][k] != ch {
          assert s[1..][k] == s[k + 1];
        }
      }
      PiecesOfSplitAvoid(s[1..], c, ch);
      var rest := Split(s[1..], c);
      if s[0] != c {
        NotInConcat([s[0]], rest[0], ch);
      }
    }
  }

  /** The pieces of a clock text built from separator-free parts. */
  lemma {:induction false} ClockOfText(hh: string, mm: string, period: string)
    requires ':' !in hh && ' ' !in hh && ':' !in mm && ' ' !in mm && ' ' !in period
    ensures ClockOf(ClockText(hh, mm, period))
      == Clock(hh, Some(mm), if period == "" then None else Some(period))
  {
    var hhmm := hh + ":" + mm;
    var text := ClockText(hh, mm, period);
    assert hhmm == hh + [':'] + mm;
    NotInConcat(hh + [':'], mm, ' ');
    if period == "" {
      assert text == hhmm;
      SplitWithoutSeparator(hhmm, ' ');
    } else {
      assert text == hhmm + [' '] + period;
      SplitAtFirst(hhmm, period, ' ');
      SplitWithoutSeparator(period, ' ');
    }
    assert Split(text, ' ')[0] == hhmm;
    SplitAtFirst(hh, mm, ':');
    SplitWithoutSeparator(mm, ':');
    assert Split(hhmm, ':') == [hh, mm];
  }

  lemma AllDigitsAvoid(d: string, ch: char)
    requires AllDigits(d) && !IsDigit(ch)
    ensures ch !in d
  {
    forall k | 0 <= k < |d| ensures d[k] != ch {
      assert IsDigit(d[k]);
    }
  }

  /** How a well-formed clock text is read: the digits before the colon are
      the hour; a period equal to `PM` in any letter case moves hours below
      12 into the afternoon; any other non-empty period maps hour 12 to 0;
      no period leaves the hour alone; the minute text is kept verbatim and
      defaults to `00` when empty. */
  lemma {:induction false} ToDateClock(date: Json, hh: string, mm: string, period: string)
    requires Truthy(Some(date)) && !ToStringThrows(date)
    requires |hh| > 0 && AllDigits(hh)
    requires ':' !in mm && ' ' !in mm && ' ' !in period
    ensures var r := ToDate(Some(date), Some(JStr(ClockText(hh, mm, period))));
      var v := DigitsValue(hh);
      && r.Ok? && r.value.Naive?
      && r.value.moment.date == date
      && r.value.moment.minute == (if mm == "" then "00" else mm)
      && (period != "" && IsPM(period) && v < 12 ==> r.value.moment.hour == v + 12)
      && (period != "" && !IsPM(period) && v == 12 ==> r.value.moment.hour == 0)
      && (period == "" || (IsPM(period) && v >= 12) || (!IsPM(period) && v != 12)
          ==> r.value.moment.hour == v)
  {
    AllDigitsAvoid(hh, ' ');
    AllDigitsAvoid(hh, ':');
    var text := ClockText(hh, mm, period);
    assert text[|hh|] == ':';
    assert TimeText(Some(JStr(text))) == Ok(text);
    ClockOfText(hh, mm, period);
    var c := ClockOf(text);
    assert hh + "" == hh;
    ParseIntDigits(hh, "");
    assert ParseInt(c.hourText) == Some(DigitsValue(hh));
  }

  /** An hour text that parseInt cannot read makes an Invalid Date, whatever
      the minute and period. */
  lemma UnreadableHourIsInvalid(date: Json, hh: string, mm: string, period: string)
    requires Truthy(Some(date)) && !ToStringThrows(date)
    requires ':' !in hh && ' ' !in hh && ':' !in mm && ' ' !in mm && ' ' !in period
    requires ParseInt(hh).None?
    ensures ToDate(Some(date), Some(JStr(ClockText(hh, mm, period)))) == Ok(InvalidDate)
  {
    var text := ClockText(hh, mm, period);
    assert text[|hh|] == ':';
    assert TimeText(Some(JStr(text))) == Ok(text);
    ClockOfText(hh, mm, period);
  }
}

/** Worked readings of clock texts. The minute is left symbolic and each
    literal hour lives in its own small lemma: the solver evaluates one
    literal cheaply, several at once expensively. */
module ScheduleExamples {
  import opened Wrappers
  import opened Json
  import opened JsString
  import opened Schedule

  lemma TwoDigitsValue(a: char, b: char)
    requires IsDigit(a) && IsDigit(b)
    ensures AllDigits([a, b])
    ensures DigitsValue([a, b]) == (a as int - '0' as int) * 10 + (b as int - '0' as int)
  {
    var d := [a, b];
    assert d[..1] == [a];
    assert [a][..0] == [];
    assert DigitsValue([a]) == DigitsValue([]) * 10 + (a as int - '0' as int);
    assert DigitsValue(d) == DigitsValue([a]) * 10 + (b as int - '0' as int);
  }

  lemma Clock0000() ensures ClockOf("00:00") == Clock("00", Some("00"), None)
  {
    assert ClockText("00", "00", "") == "00:00";
    ClockOfText("00", "00", "");
  }

  lemma Parse00() ensures ParseInt("00") == Some(0)
  {
    TwoDigitsValue('0', '0');
    assert "00" + "" == "00";
    ParseIntDigits("00", "");
  }

  /** A falsy time is read as the clock text "00:00". */
  lemma DefaultTimeText(date: Json, time: Option<Json>)
    requires Truthy(Some(date)) && !ToStringThrows(date)
    requires !Truthy(time)
    ensures ToDate(Some(date), time) == Ok(ReadClock(date, ClockOf("00:00")))
  {
    assert TimeText(time) == Ok("00:00");
  }

  /** The clock text "00:00" reads as hour 0, minute "00". */
  lemma MidnightClock(date: Json)
    ensures ReadClock(date, ClockOf("00:00")) == Naive(Moment(date, 0, "00"))
  {
    assert ClockOf("00:00") == Clock("00", Some("00"), None) by {
      Clock0000();
    }
    assert ReadClock(date, Clock("00", Some("00"), None)) == Naive(Moment(date, 0, "00")) by {
      Parse00();
    }
  }

  /** A missing or empty time is read as midnight, minute `00`. */
  lemma MissingTimeIsMidnight(date: Json, time: Option<Json>)
    requires Truthy(Some(date)) && !ToStringThrows(date)
    requires !Truthy(time)
    ensures ToDate(Some(date), time) == Ok(Naive(Moment(date, 0, "00")))
  {
    DefaultTimeText(date, time);
    MidnightClock(date);
  }

  /** A clock text whose hour digits have value `v` reads, at any minute,
      as the hour the 12-hour correction makes of `v`. */
  lemma ReadsAt(date: Json, hh: string, v: int, mm: string, period: string)
    requires Truthy(Some(date)) && !ToStringThrows(date)
    requires |hh| > 0 && AllDigits(hh) && DigitsValue(hh) == v
    requires ':' !in mm && ' ' !in mm && mm != "" && ' ' !in period && period != ""
    ensures ToDate(Some(date), Some(JStr(ClockText(hh, mm, period))))
      == Ok(Naive(Moment(date, AdjustHour(v, Some(period)), mm)))
  {
    var text := ClockText(hh, mm, period);
    AllDigitsAvoid(hh, ' ');
    AllDigitsAvoid(hh, ':');
    assert ToDate(Some(date), Some(JStr(text))) == Ok(ReadClock(date, ClockOf(text))) by {
      assert text[|hh|] == ':';
      assert TimeText(Some(JStr(text))) == Ok(text);
    }
    assert ClockOf(text) == Clock(hh, Some(mm), Some(period)) by {
      ClockOfText(hh, mm, period);
    }
    assert ParseInt(hh) == Some(v) by {
      assert hh + "" == hh;
      ParseIntDigits(hh, "");
    }
  }

  lemma Periods() ensures IsPM("PM") && IsPM("pm") && !IsPM("AM")
  {
  }

  /** The period corrections the examples use. */
  lemma PeriodCorrections(v: int)
    ensures v < 12 ==> AdjustHour(v, Some("PM")) == v + 12 && AdjustHour(v, Some("pm")) == v + 12
    ensures v != 12 ==> AdjustHour(v, Some("AM")) == v
    ensures AdjustHour(12, Some("AM")) == 0 && AdjustHour(12, Some("PM")) == 12
  {
    Periods();
  }

  /** 12 AM is hour 0. */
  lemma MidnightReading(date: Json, mm: string)
    requires Truthy(Some(date)) && !ToStringThrows(date)
    requires ':' !in mm && ' ' !in mm && mm != ""
    ensures ToDate(Some(date), Some(JStr(ClockText("12", mm, "AM")))) == Ok(Naive(Moment(date, 0, mm)))
  {
    PeriodCorrections(12);
    TwoDigitsValue('1', '2');
    ReadsAt(date, "12", 12, mm, "AM");
  }

  /** 12 PM stays hour 12. */
  lemma NoonReading(date: Json, mm: string)
    requires Truthy(Some(date)) && !ToStringThrows(date)
    requires ':' !in mm && ' ' !in mm && mm != ""
    ensures ToDate(Some(date), Some(JStr(ClockText("12", mm, "PM")))) == Ok(Naive(Moment(date, 12, mm)))
  {
    PeriodCorrections(12);
    TwoDigitsValue('1', '2');
    ReadsAt(date, "12", 12, mm, "PM");
  }

  /** 1 PM is hour 13. */
  lemma OnePMReading(date: Json, mm: string)
    requires Truthy(Some(date)) && !ToStringThrows(date)
    requires ':' !in mm && ' ' !in mm && mm != ""
    ensures ToDate(Some(date), Some(JStr(ClockText("01", mm, "PM")))) == Ok(Naive(Moment(date, 13, mm)))
  {
    PeriodCorrections(1);
    TwoDigitsValue('0', '1');
    ReadsAt(date, "01", 1, mm, "PM");
  }

  /** The period ignores case: 2 pm is hour 14. */
  lemma LowerCasePMReading(date: Json, mm: string)
    requires Truthy(Some(date)) && !ToStringThrows(date)
    requires ':' !in mm && ' ' !in mm && mm != ""
    ensures ToDate(Some(date), Some(JStr(ClockText("02", mm, "pm")))) == Ok(Naive(Moment(date, 14, mm)))
  {
    PeriodCorrections(2);
    TwoDigitsValue('0', '2');
    ReadsAt(date, "02", 2, mm, "pm");
  }

  /** The 12-hour rule at any minute: 12 AM is hour 0, 12 PM stays 12,
      1 PM is 13, and the period ignores letter case, so 2 pm is 14. */
  lemma TwelveHourRule(date: Json, mm: string)
    requires Truthy(Some(date)) && !ToStringThrows(date)
    requires ':' !in mm && ' ' !in mm && mm != ""
    ensures ToDate(Some(date), Some(JStr(ClockText("12", mm, "AM")))) == Ok(Naive(Moment(date, 0, mm)))
    ensures ToDate(Some(date), Some(JStr(ClockText("12", mm, "PM")))) == Ok(Naive(Moment(date, 12, mm)))
    ensures ToDate(Some(date), Some(JStr(ClockText("01", mm, "PM")))) == Ok(Naive(Moment(date, 13, mm)))
    ensures ToDate(Some(date), Some(JStr(ClockText("02", mm, "pm")))) == Ok(Naive(Moment(date, 14, mm)))
  {
    MidnightReading(date, mm);
    NoonReading(date, mm);
    OnePMReading(date, mm);
    LowerCasePMReading(date, mm);
  }
}

=== FILE: search.dfy ===
/** `filteredDoctors` of the patient home page (Home.js): the doctor cards
    shown for the search box, the specialty selector and the "available
    only" switch. */
module DoctorSearch {
  import opened JsString

  /** The fields of a doctor card the filter reads. */
  datatype Doctor = Doctor(id: string, name: string, specialty: string, available: bool)

  /** The three controls; an empty `specialty` is the "all specialties"
      choice. */
  datatype Criteria = Criteria(term: string, specialty: string, availableOnly: bool)

  /** The search term occurs in the name or the specialty, ignoring ASCII
      case. */
  predicate MatchesSearch(d: Doctor, term: string)
  {
    Includes(ToLower(d.name), ToLower(term)) || Includes(ToLower(d.specialty), ToLower(term))
  }

  /** The filter callback: the search matches, the specialty is the one
      selected (if any), and the doctor is available when only available
      doctors are asked for. */
  predicate Keep(d: Doctor, c: Criteria)
  {
    && MatchesSearch(d, c.term)
    && (c.specialty == "" || d.specialty == c.specialty)
    && (!c.availableOnly || d.available)
  }

  /** `doctors.filter(Keep)`: the kept doctors, in list order. */
  function Filter(ds: seq<Doctor>, c: Criteria): (r: seq<Doctor>)
    ensures |r| <= |ds|
    ensures forall d :: d in r ==> Keep(d, c)
    decreases |ds|
  {
    if |ds| == 0 then []
    else if Keep(ds[0], c) then [ds[0]] + Filter(ds[1..], c)
    else Filter(ds[1..], c)
  }

  /** A doctor is shown exactly when it is listed and passes the filter. */
  lemma {:induction false} FilterMembership(ds: seq<Doctor>, c: Criteria, d: Doctor)
    ensures d in Filter(ds, c) <==> d in ds && Keep(d, c)
    decreases |ds|
  {
    if |ds| > 0 {
      FilterMembership(ds[1..], c, d);
      assert ds == [ds[0]] + ds[1..];
    }
  }

  /** Filtering a concatenation filters each part: the shown cards keep
      the list order. */
  lemma {:induction false} FilterAppend(a: seq<Doctor>, b: seq<Doctor>, c: Criteria)
    ensures Filter(a + b, c) == Filter(a, c) + Filter(b, c)
    decreases |a|
  {
    if |a| > 0 {
      assert (a + b)[1..] == a[1..] + b;
      FilterAppend(a[1..], b, c);
    } else {
      assert a + b == b;
    }
  }

  /** Filtering the shown cards again changes nothing. */
  lemma {:induction false} FilterIdempotent(ds: seq<Doctor>, c: Criteria)
    ensures Filter(Filter(ds, c), c) == Filter(ds, c)
    decreases |ds|
  {
    if |ds| > 0 {
      FilterIdempotent(ds[1..], c);
    }
  }

  /** With every control cleared all doctors are shown. */
  lemma {:induction false} EmptyCriteriaShowsAll(ds: seq<Doctor>)
    ensures Filter(ds, Criteria("", "", false)) == ds
    decreases |ds|
  {
    if |ds| > 0 {
      assert ToLower("") == "";
      IncludesEmpty(ToLower(ds[0].name));
      EmptyCriteriaShowsAll(ds[1..]);
      assert [ds[0]] + ds[1..] == ds;
    }
  }

  /** Switching "available only" on hides exactly the unavailable doctors. */
  lemma {:induction false} AvailableOnlyNarrows(ds: seq<Doctor>, term: string, specialty: string)
    ensures Filter(ds, Criteria(term, specialty, true)) ==
            Filter(Filter(ds, Criteria(term, specialty, false)), Criteria("", "", true))
    decreases |ds|
  {
    if |ds| > 0 {
      assert ToLower("") == "";
      IncludesEmpty(ToLower(ds[0].name));
      AvailableOnlyNarrows(ds[1..], term, specialty);
    }
  }

  /** The search ignores the case of the term: typing it in upper or lower
      case shows the same doctors. */
  lemma SearchIgnoresCase(ds: seq<Doctor>, c: Criteria)
    ensures Filter(ds, c.(term := ToUpper(c.term))) == Filter(ds, c)
    ensures Filter(ds, c.(term := ToLower(c.term))) == Filter(ds, c)
  {
    CaseRoundTrip(c.term);
    LowerIdempotent(c.term);
    SameKeep(ds, c, c.(term := ToUpper(c.term)));
    SameKeep(ds, c, c.(term := ToLower(c.term)));
  }

  /** Criteria that keep the same doctors give the same list. */
  lemma {:induction false} SameKeep(ds: seq<Doctor>, c1: Criteria, c2: Criteria)
    requires forall d :: Keep(d, c1) == Keep(d, c2)
    ensures Filter(ds, c1) == Filter(ds, c2)
    decreases |ds|
  {
    if |ds| > 0 {
      SameKeep(ds[1..], c1, c2);
    }
  }
}

=== FILE: upcoming.dfy ===
/** `computeUpcomingAppointments` of the patient home page (Home.js): the
    count of appointments that are still ahead and the nearest of them,
    shown on the "My Appointments" badge.

    The clock reading `now` and the browser's date construction are
    parameters: `stamp(m)` is `new Date(iso).getTime()` for the ISO text
    built from moment `m`, None when that text is an Invalid Date. */
module Upcoming {
  import opened Wrappers
  import opened Json
  import opened Schedule

  /** What the badge shows: the count and the nearest appointment record. */
  datatype Snapshot = Snapshot(count: nat, next: Option<Json>)

  const Empty := Snapshot(0, None)

  /** How one array element fares in the loop body: skipped by a `continue`
      or a failed time test, counted with its timestamp, or raising a
      TypeError inside `toDate` (a truthy non-string `time`). */
  datatype Verdict = Skipped | Counted(at: int) | Raises

  /** `status` is one of the terminal states. */
  predicate IsTerminal(a: Json)
  {
    Get(a, "status") == Some(JStr("cancelled")) || Get(a, "status") == Some(JStr("completed"))
  }

  /** The guard of the loop body: an object with a truthy `id`, `date` and
      `time` that is not in a terminal state. */
  predicate Eligible(a: Json)
  {
    && a.JObj?
    && Truthy(Get(a, "id")) && Truthy(Get(a, "date")) && Truthy(Get(a, "time"))
    && !IsTerminal(a)
  }

  /** The loop body for element `a`. A falsy element and any element
      without a truthy `id`, `date` and `time` is skipped; so is a terminal
      one; the rest are counted when their timestamp is not before `now`.
      An element is counted exactly when it passes the guard and its time
      reads as a moment stamped at or after `now`, with that stamp; it
      raises exactly when it passes the guard and reading its time throws. */
  function Classify(a: Json, now: int, stamp: Moment -> Option<int>): (v: Verdict)
    ensures IsTerminal(a) ==> v == Skipped
    ensures v.Counted? ==> Truthy(Get(a, "id")) && v.at >= now
  {
    if !Truthy(Some(a)) then Skipped
    else if !Truthy(Get(a, "id")) || !Truthy(Get(a, "date")) || !Truthy(Get(a, "time")) then Skipped
    else if IsTerminal(a) then Skipped
    else
      match ToDate(Get(a, "date"), Get(a, "time"))
      case Thrown => Raises
      case Ok(Naive(m)) =>
        if stamp(m).Some? && stamp(m).value >= now then Counted(stamp(m).value) else Skipped
      case Ok(_) => Skipped
  }

  /** Both directions of the two verdicts that matter: an element makes
      the loop throw exactly when it passes the guard and its date
      construction throws, and it is counted exactly when it passes the
      guard and reads as a moment stamped at or after `now`. */
  lemma ClassifyMeaning(a: Json, now: int, stamp: Moment -> Option<int>)
    ensures var v := Classify(a, now, stamp);
      v.Raises? <==> Eligible(a) && ToDate(Get(a, "date"), Get(a, "time")).Thrown?
    ensures var v := Classify(a, now, stamp); var d := ToDate(Get(a, "date"), Get(a, "time"));
      v.Counted? <==>
        && Eligible(a) && d.Ok? && d.value.Naive?
        && stamp(d.value.moment).Some? && stamp(d.value.moment).value >= now
    ensures var v := Classify(a, now, stamp);
      v.Counted? ==> Some(v.at) == stamp(ToDate(Get(a, "date"), Get(a, "time")).value.moment)
  {
    if Eligible(a) {
      var d := ToDate(Get(a, "date"), Get(a, "time"));
      assert Classify(a, now, stamp) == match d
        case Thrown => Raises
        case Ok(Naive(m)) => if stamp(m).Some? && stamp(m).value >= now then Counted(stamp(m).value) else Skipped
        case Ok(_) => Skipped;
    } else {
      assert Classify(a, now, stamp) == Skipped;
    }
  }

  /** An element that passes the guard but whose date cannot be converted
      to a string makes the loop throw, whatever its time reads as. */
  lemma UnstringableDateRaises(a: Json, now: int, stamp: Moment -> Option<int>)
    requires Eligible(a) && ToStringThrows(Get(a, "date").value)
    ensures Classify(a, now, stamp) == Raises
  {
    ClassifyMeaning(a, now, stamp);
  }

  /** The verdicts of all elements, in array order. */
  function Verdicts(items: seq<Json>, now: int, stamp: Moment -> Option<int>): (vs: seq<Verdict>)
    ensures |vs| == |items|
    ensures forall j :: 0 <= j < |items| ==> vs[j] == Classify(items[j], now, stamp)
  {
    seq(|items|, j requires 0 <= j < |items| => Classify(items[j], now, stamp))
  }

  /** Some element makes the loop throw. */
  predicate AnyRaises(vs: seq<Verdict>)
  {
    exists j :: 0 <= j < |vs| && vs[j].Raises?
  }

  /** The number of counted elements: the reference definition of the
      badge count. */
  function CountUpcoming(vs: seq<Verdict>): (n: nat)
    ensures n <= |vs|
    ensures n == 0 <==> forall j :: 0 <= j < |vs| ==> !vs[j].Counted?
    ensures n == |vs| <==> forall j :: 0 <= j < |vs| ==> vs[j].Counted?
    decreases |vs|
  {
    if |vs| == 0 then 0
    else
      var init := vs[..|vs| - 1];
      assert forall j :: 0 <= j < |init| ==> init[j] == vs[j];
      CountUpcoming(init) + (if vs[|vs| - 1].Counted? then 1 else 0)
  }

  /** Position `k` holds the nearest upcoming appointment: it is counted,
      no counted element is nearer, and every counted element before it is
      strictly farther (ties go to the earliest position). */
  predicate IsNearest(vs: seq<Verdict>, k: int)
  {
    && 0 <= k < |vs|
    && vs[k].Counted?
    && forall j :: 0 <= j < |vs| && vs[j].Counted? ==>
         && vs[k].at <= vs[j].at
         && (j < k ==> vs[k].at < vs[j].at)
  }

  /** The whole computation, including the `try`/`catch` and the
      `Array.isArray` test: an unreadable or non-array document, or a
      throwing element anywhere, yields count 0 and no appointment;
      otherwise the count is the number of upcoming records and the next
      appointment is the nearest one, absent exactly when the count is 0. */
  method ComputeUpcoming(doc: Stored, now: int, stamp: Moment -> Option<int>) returns (s: Snapshot)
    ensures !(ReadArray(doc).Ok? && ReadArray(doc).value.Some?) ==> s == Empty
    ensures ReadArray(doc).Ok? && ReadArray(doc).value.Some? ==>
      var items := ReadArray(doc).value.value;
      var vs := Verdicts(items, now, stamp);
      && (AnyRaises(vs) ==> s == Empty)
      && (!AnyRaises(vs) ==>
            && s.count == CountUpcoming(vs)
            && (s.next.None? <==> s.count == 0)
            && (s.next.Some? ==> exists k :: IsNearest(vs, k) && s.next.value == items[k]))
  {
    var read := ReadArray(doc);
    if read.Thrown? || read.value.None? {
      return Empty;
    }
    var items := read.value.value;
    // The loop body of the source classifies each element in turn; the
    // classification is pure, so computing the verdicts up front is the
    // same computation.
    var vs := Verdicts(items, now, stamp);
    var raised, count, best := Scan(vs, now);
    if raised {
      s := Empty;
    } else if best.None? {
      s := Snapshot(count, None);
    } else {
      s := Snapshot(count, Some(items[best.value]));
    }
  }

  /** The `for` loop over the verdicts: whether it throws, the count, and
      the position of the nearest appointment (`closest` starts at
      Infinity, written None, and only a strictly smaller difference
      replaces it). */
  method Scan(vs: seq<Verdict>, now: int) returns (raised: bool, count: nat, best: Option<nat>)
    ensures raised <==> AnyRaises(vs)
    ensures !raised ==> count == CountUpcoming(vs)
    ensures !raised ==> (best.None? <==> count == 0)
    ensures !raised && best.Some? ==> IsNearest(vs, best.value)
  {
    raised, count, best := false, 0, None;
    var closest: Option<int> := None;
    var i := 0;
    while i < |vs|
      invariant 0 <= i <= |vs|
      invariant forall j :: 0 <= j < i ==> !vs[j].Raises?
      invariant count == CountUpcoming(vs[..i])
      invariant best.None? <==> count == 0
      invariant best.None? ==> closest.None? && NoneCounted(vs[..i])
      invariant best.Some? ==>
        && IsNearest(vs[..i], best.value)
        && closest == Some(vs[best.value].at - now)
    {
      CountStep(vs, i);
      match vs[i] {
        case Raises =>
          return true, 0, None;
        case Skipped =>
          if best.Some? {
            NearestKept(vs, i, best.value);
          } else {
            NoneCountedStep(vs, i);
          }
        case Counted(t) =>
          count := count + 1;
          var diff := t - now;
          if closest.None? || diff < closest.value {
            NearestNew(vs, i, best);
            closest := Some(diff);
            best := Some(i);
          } else {
            NearestKept(vs, i, best.value);
          }
      }
      i := i + 1;
    }
    assert vs[..i] == vs;
  }

  /** No element of `vs` is counted. */
  predicate NoneCounted(vs: seq<Verdict>)
  {
    forall j :: 0 <= j < |vs| ==> !vs[j].Counted?
  }

  /** One more element adds one to the count exactly when it is counted. */
  lemma CountStep(vs: seq<Verdict>, i: int)
    requires 0 <= i < |vs|
    ensures CountUpcoming(vs[..i + 1]) == CountUpcoming(vs[..i]) + (if vs[i].Counted? then 1 else 0)
  {
    assert vs[..i + 1][..i] == vs[..i];
  }

  /** An uncounted element keeps a prefix free of counted elements. */
  lemma NoneCountedStep(vs: seq<Verdict>, i: int)
    requires 0 <= i < |vs| && !vs[i].Counted? && NoneCounted(vs[..i])
    ensures NoneCounted(vs[..i + 1])
  {
    var p, q := vs[..i], vs[..i + 1];
    forall j | 0 <= j < |q| ensures !q[j].Counted? {
      if j < i {
        assert q[j] == p[j];
      }
    }
  }

  /** The nearest of a prefix stays the nearest when the next element is
      uncounted or not strictly nearer. */
  lemma NearestKept(vs: seq<Verdict>, i: int, b: int)
    requires 0 <= i < |vs| && IsNearest(vs[..i], b)
    requires vs[i].Counted? ==> vs[b].at <= vs[i].at
    ensures IsNearest(vs[..i + 1], b)
  {
    var p, q := vs[..i], vs[..i + 1];
    forall j | 0 <= j < |q| && q[j].Counted?
      ensures q[b].at <= q[j].at && (j < b ==> q[b].at < q[j].at)
    {
      if j < i {
        assert q[j] == p[j];
      }
    }
  }

  /** A counted element strictly nearer than every earlier one becomes the
      nearest. */
  lemma NearestNew(vs: seq<Verdict>, i: int, b: Option<nat>)
    requires 0 <= i < |vs| && vs[i].Counted?
    requires b.None? ==> NoneCounted(vs[..i])
    requires b.Some? ==> IsNearest(vs[..i], b.value) && vs[i].at < vs[b.value].at
    ensures IsNearest(vs[..i + 1], i)
  {
    var p, q := vs[..i], vs[..i + 1];
    forall j | 0 <= j < |q| && q[j].Counted?
      ensures q[i].at <= q[j].at && (j < i ==> q[i].at < q[j].at)
    {
      if j < i {
        assert q[j] == p[j];
      }
    }
  }

  /** At most one position is the nearest. */
  lemma NearestIsUnique(vs: seq<Verdict>, k1: int, k2: int)
    requires IsNearest(vs, k1) && IsNearest(vs, k2)
    ensures k1 == k2
  {
  }

  /** Counted elements exist exactly when the count is positive, and then
      a nearest one exists: the snapshot's `next` is never missing for a
      positive count. */
  lemma {:induction false} NearestExists(vs: seq<Verdict>)
    ensures CountUpcoming(vs) > 0 <==> exists j :: 0 <= j < |vs| && vs[j].Counted?
    ensures CountUpcoming(vs) > 0 ==> exists k :: IsNearest(vs, k)
    decreases |vs|
  {
    if |vs| > 0 {
      var init := vs[..|vs| - 1];
      var last := |vs| - 1;
      NearestExists(init);
      if CountUpcoming(init) > 0 {
        var k :| IsNearest(init, k);
        if vs[last].Counted? && vs[last].at < vs[k].at {
          assert IsNearest(vs, last);
        } else {
          assert IsNearest(vs, k);
        }
      } else if vs[last].Counted? {
        assert IsNearest(vs, last);
      }
      if exists j :: 0 <= j < |vs| && vs[j].Counted? {
        var j :| 0 <= j < |vs| && vs[j].Counted?;
        if j < last {
          assert init[j] == vs[j];
        }
      }
    }
  }

  /** A cancelled or completed record adds nothing to the count and is
      never the nearest, wherever it is placed and even with a future
      timestamp. */
  lemma TerminalNeverUpcoming(items: seq<Json>, k: int, now: int, stamp: Moment -> Option<int>)
    requires 0 <= k < |items| && IsTerminal(items[k])
    ensures !IsNearest(Verdicts(items, now, stamp), k)
    ensures CountUpcoming(Verdicts(items, now, stamp)) < |items|
  {
    CountBelowLength(Verdicts(items, now, stamp), k);
  }

  /** An uncounted position keeps the count below the length. */
  lemma {:induction false} CountBelowLength(vs: seq<Verdict>, k: int)
    requires 0 <= k < |vs| && !vs[k].Counted?
    ensures CountUpcoming(vs) < |vs|
    decreases |vs|
  {
    if k < |vs| - 1 {
      assert vs[..|vs| - 1][k] == vs[k];
      CountBelowLength(vs[..|vs| - 1], k);
    }
  }
}

=== FILE: upcoming_example.dfy ===
/** A worked badge computation: three scheduled appointments whose times
    read as a morning moment and a past moment behind `now` and an
    afternoon moment ahead of it. Only the afternoon appointment is ahead,
    so the count is 1 and it is the next one. The browser's date
    construction stays abstract as `stamp`; the example only assumes it
    orders the three moments and `now` as a clock would. */
module UpcomingExample {
  import opened Wrappers
  import opened Json
  import opened JsString
  import opened Schedule
  import opened ScheduleExamples
  import opened Upcoming

  /** A scheduled appointment record. */
  function Scheduled(id: int, date: Json, time: string): Json
  {
    JObj(map["id" := JNum(id), "date" := date, "time" := JStr(time), "status" := JStr("scheduled")])
  }

  /** The fields of a scheduled record. */
  lemma ScheduledFields(id: int, date: Json, time: string)
    ensures var a := Scheduled(id, date, time);
      && Get(a, "id") == Some(JNum(id)) && Get(a, "date") == Some(date)
      && Get(a, "time") == Some(JStr(time)) && Get(a, "status") == Some(JStr("scheduled"))
  {
  }

  /** A scheduled record whose time reads as moment `m` is counted exactly
      when `m` is not before `now`. */
  lemma ClassifyScheduled(id: int, date: Json, time: string, m: Moment, now: int, stamp: Moment -> Option<int>)
    requires id != 0 && Truthy(Some(date)) && time != ""
    requires ToDate(Some(date), Some(JStr(time))) == Ok(Naive(m))
    requires stamp(m).Some?
    ensures Classify(Scheduled(id, date, time), now, stamp) ==
      if stamp(m).value >= now then Counted(stamp(m).value) else Skipped
  {
    var a := Scheduled(id, date, time);
    ScheduledFields(id, date, time);
    assert Eligible(a);
    assert ToDate(Get(a, "date"), Get(a, "time")) == Ok(Naive(m));
    ClassifyMeaning(a, now, stamp);
  }

  /** The verdicts of a three-element array, one by one. */
  lemma VerdictsOfThree(a: Json, b: Json, c: Json, now: int, stamp: Moment -> Option<int>)
    ensures Verdicts([a, b, c], now, stamp) ==
      [Classify(a, now, stamp), Classify(b, now, stamp), Classify(c, now, stamp)]
  {
  }

  /** Only the middle of three verdicts is counted: the count is 1 and the
      middle one is the only nearest. */
  lemma MiddleOnlyCounted(t: int)
    ensures !AnyRaises([Skipped, Counted(t), Skipped])
    ensures CountUpcoming([Skipped, Counted(t), Skipped]) == 1
    ensures IsNearest([Skipped, Counted(t), Skipped], 1)
    ensures forall k :: IsNearest([Skipped, Counted(t), Skipped], k) ==> k == 1
  {
    var vs := [Skipped, Counted(t), Skipped];
    assert vs[..2] == [Skipped, Counted(t)];
    assert vs[..2][..1] == [Skipped];
    assert [Skipped][..0] == [];
    assert CountUpcoming([Skipped]) == 0;
    assert CountUpcoming([Skipped, Counted(t)]) == 1;
    assert forall j :: 0 <= j < |vs| ==> vs[j] == Skipped || vs[j] == Counted(t);
    forall k | IsNearest(vs, k) ensures k == 1 {
      NearestIsUnique(vs, k, 1);
    }
  }

  /** Three scheduled records whose times read as a morning, an afternoon
      and a past moment: seen between the morning and the afternoon, only
      the afternoon record counts and it is the next appointment. */
  lemma {:induction false} BetweenMorningAndAfternoon(
    today: Json, yesterday: Json, morning: string, afternoon: string, past: string,
    m1: Moment, m2: Moment, m3: Moment, now: int, stamp: Moment -> Option<int>)
    requires Truthy(Some(today)) && Truthy(Some(yesterday))
    requires morning != "" && afternoon != "" && past != ""
    requires ToDate(Some(today), Some(JStr(morning))) == Ok(Naive(m1))
    requires ToDate(Some(today), Some(JStr(afternoon))) == Ok(Naive(m2))
    requires ToDate(Some(yesterday), Some(JStr(past))) == Ok(Naive(m3))
    requires stamp(m1).Some? && stamp(m2).Some? && stamp(m3).Some?
    requires stamp(m3).value < now && stamp(m1).value < now <= stamp(m2).value
    ensures var vs := Verdicts([Scheduled(1, today, morning), Scheduled(2, today, afternoon),
                                Scheduled(3, yesterday, past)], now, stamp);
      && vs == [Skipped, Counted(stamp(m2).value), Skipped]
      && !AnyRaises(vs)
      && CountUpcoming(vs) == 1
      && IsNearest(vs, 1)
      && forall k :: IsNearest(vs, k) ==> k == 1
  {
    var a, b, c := Scheduled(1, today, morning), Scheduled(2, today, afternoon), Scheduled(3, yesterday, past);
    ClassifyScheduled(1, today, morning, m1, now, stamp);
    ClassifyScheduled(2, today, afternoon, m2, now, stamp);
    ClassifyScheduled(3, yesterday, past, m3, now, stamp);
    var t := stamp(m2).value;
    assert Classify(a, now, stamp) == Skipped;
    assert Classify(b, now, stamp) == Counted(t);
    assert Classify(c, now, stamp) == Skipped;
    VerdictsOfThree(a, b, c, now, stamp);
    var vs := Verdicts([a, b, c], now, stamp);
    assert vs == [Skipped, Counted(t), Skipped];
    MiddleOnlyCounted(t);
  }

  /** A record whose date is the object `{"toString": 0}`, as
      `JSON.parse` makes it. */
  function ToStringDated(id: int, time: string): Json
  {
    JObj(map["id" := JNum(id), "date" := JObj(map["toString" := JNum(0)]), "time" := JStr(time)])
  }

  /** One such record after a readable scheduled one makes the whole
      computation throw, so the badge shows 0 and no next appointment. */
  lemma ToStringDateSpoilsBadge(today: Json, time: string, now: int, stamp: Moment -> Option<int>)
    requires time != ""
    ensures AnyRaises(Verdicts([Scheduled(1, today, time), ToStringDated(2, time)], now, stamp))
  {
    var b := ToStringDated(2, time);
    assert Get(b, "date") == Some(JObj(map["toString" := JNum(0)]));
    assert Get(b, "id") == Some(JNum(2)) && Get(b, "time") == Some(JStr(time));
    assert Get(b, "status").None?;
    UnstringableDateRaises(b, now, stamp);
    assert Verdicts([Scheduled(1, today, time), b], now, stamp)[1] == Raises;
  }
}

=== FILE: wrappers.dfy ===
/** Failure-compatible wrappers shared by the whole model.
    - Option<T> stands for a JavaScript value that may be `undefined`/`null`.
    - Result<T> stands for a computation that either yields a value or throws
      a JavaScript exception (which every caller in the portal catches). */
module Wrappers {

  datatype Option<+T> = None | Some(value: T)

  /** `Thrown` carries no payload: the portal swallows every exception it
      catches, so only the fact that one was raised matters. */
  datatype Result<+T> = Ok(value: T) | Thrown
}
